=== FILE: README.md ===
# QuickShop shop manager, modelled in Dafny

This project models the core of `SimpleShopManager` in QuickShop-Hikari, a
Minecraft plugin for player-run chest shops. It covers four parts:

- **The shop directory.** Shops are filed in three levels: world name, then
  chunk key, then block location. Each level is created on first use. The
  model covers `addShop`, `removeShop`, `getShop`, `getShops(world, cx, cz)`,
  `getAllShops`, `getPlayerAllShops` and the lazy `ShopIterator`.
- **Shop limits and tax.** `isReachedLimit`, and `getTax` up to the point
  where the tax event may override the rate.
- **Trade-all resolution.** The player can type the trade-all word instead of
  a number. `sellingShopAllCalc` and `buyingShopAllCalc` turn it into an
  amount, or into 0 with a message naming the cause.
- **Chat and trade checks.** `handleChat` consumes the player's pending
  action. `actionTrade`, `actionBuying` and `actionSelling` then run their
  checks before any economy transaction is built.

Layout, one module per file:

| file | module | what |
|---|---|---|
| `wrappers.dfy` | `Wrappers` | `Option` and `Result` |
| `enumeration.dfy` | `Enumeration` | a fixed iteration order for map keys and values; concatenating, flattening and filtering lists |
| `shops.dfy` | `Shops` | locations, chunks, shops, players, chunk coordinates |
| `shop_index.dfy` | `ShopIndex` | the three-level directory and its operations |
| `shop_iterator.dfy` | `ShopIteration` | `ShopIterator` as an immutable state |
| `limits.dfy` | `Limits` | `isReachedLimit` |
| `tax.dfy` | `Tax` | `getTax` |
| `trade_all.dfy` | `TradeAll` | the two trade-all resolutions, and Java's `double` to `int` casts |
| `interaction.dfy` | `Interaction` | pending actions and `handleChat` |
| `trade_gates.dfy` | `TradeGates` | `actionTrade` and the checks of `actionBuying`/`actionSelling` |

## Modelling decisions

- **Chunk keys.** The chunk coordinate `(int) Math.floor(b / 16.0)` is
  Dafny's Euclidean `b / 16`. `Shops.ChunkCoordIsFloor` proves the two agree.
- **Iteration order.** The three levels are concurrent maps
  (`Maps.newConcurrentMap()` at line 78, `new MapMaker().makeMap()` at
  lines 496 and 506), whose iteration order is unspecified. Every listing
  uses one fixed but arbitrary order of each map's keys
  (`Enumeration.Keys`). `getAllShops` and the iterator walk the same order,
  so the model can prove they yield the same list.
- **Iterators.** Each Java `Iterator` is the sequence of elements it has not
  yet returned. A level whose iterator has not been created yet is `None`.
- **The world and the economy.** Answers from the server, the inventories
  and the economy are parameters, not computations. The `Observed` record in
  `TradeGates` carries:
  - block type checks;
  - whether the shop authorizes the player (`playerAuthorize`);
  - the economy being loaded;
  - `getRemainingSpace`, `getRemainingStock`, `countSpace` and `countItems`;
  - balances.

  The player's own permissions are part of `Shops.Player`. The configuration values the trade path reads are a `Config` record.
- **Numbers.** Prices and balances are exact `real`s. Item counts are Java
  `int`s (`TradeAll.Int32`). The two casts in the trade-all resolution are
  written out:
  - `FloorQuotient` models `(int) Math.floor(b / p)`;
  - `TruncatedQuotient` models `(int)(b / p)`.

  Both saturate at the `int` bounds as Java's cast does. A zero price in
  `sellingShopAllCalc` divides to an infinity (cast to `Integer.MAX_VALUE`
  or `MIN_VALUE`) or to NaN (cast to 0), and this is modelled.
- **`removeShop` on an unknown world.** `removeShop` dereferences the
  world's bucket without a null check. For a world with no bucket it throws
  a `NullPointerException`. The model returns `Failure(WorldNotIndexed)` in
  that case, rather than requiring the world to be present.
- **`next()` without `hasNext()`.** `ShopIterator.next()` fetches the next
  world and calls `next()` on its chunk iterator without asking `hasNext()`.
  A world bucket with no chunk bucket therefore makes it throw even when
  later worlds hold shops. This is modelled (`ShopIteration.NextThrowsOnEmptyWorld`).
  `addShop` never creates such a world, so on a directory built by `addShop`
  (`ShopIndex.NoEmptyWorld`) `next()` alone is safe.
- **A refused trade-all still runs the checks.** When the trade-all word
  resolves to nothing, the source sends the cause and still calls
  `actionBuying`/`actionSelling` with amount 0. That call then ends at a
  check, normally "negative amount". `TradeGates.TradeResult` keeps both
  the cause and the final outcome.
- **`shopIsNotValid` inside `actionBuying`/`actionSelling`.** It repeats
  checks `actionTrade` has just made. The model evaluates them against the
  same observations, so on the trade path they never fire.
- **The second space check in `actionSelling`.** It re-counts the same
  inventory (line 1119) and can never fire, so it is not modelled.
- **`buyingShopAllCalc` caps by a balance nobody is charged.** When an
  unlimited shop's owner is not paid, the transaction `actionBuying` builds
  charges nobody: it uses `from(null)` (lines 685-691). The comment at lines
  1571-1573 also ties the owner's balance to the owner being paid. Yet
  `buyingShopAllCalc` still caps the amount by the owner's balance when
  the shop counts its container. `TradeAll.BuyingAllAsWritten` follows the
  code, and `TradeGates.ActionTrade` uses it as the program does. The
  corrected `TradeAll.BuyingAll` stands beside it with the intended
  properties proved. See Findings below.
- **"No space" means exactly zero.** `buyingShopAllCalc` names the shop's
  lack of space only when `countSpace` returns exactly 0 (line 1579). Both
  `TradeAll.BuyingAll` and `TradeAll.BuyingAllAsWritten` keep that test.
  A negative count therefore falls through to the later causes.

## Model

Source paths are relative to the repository root. All cited lines are in
`SimpleShopManager.java`.

| member | source | states |
|---|---|---|
| Shops.ChunkCoord | quickshop-bukkit/src/main/java/com/ghostchu/quickshop/shop/SimpleShopManager.java:501-502 | the chunk coordinate is the unique c with 16c <= b < 16c+16, for negative coordinates too |
| Shops.ChunkCoordIsFloor | quickshop-bukkit/src/main/java/com/ghostchu/quickshop/shop/SimpleShopManager.java:501-502 | the integer division equals `Math.floor(b / 16.0)` |
| Shops.ChunkOf | quickshop-bukkit/src/main/java/com/ghostchu/quickshop/shop/SimpleShopManager.java:501-504 | the chunk key carries the given world and contains the location's x and z |
| ShopIndex.ShopsInChunk | quickshop-bukkit/src/main/java/com/ghostchu/quickshop/shop/SimpleShopManager.java:234-240 | null exactly when the world or the chunk has no bucket; otherwise the bucket, agreeing with every lookup in that chunk |
| ShopIndex.GetShop | quickshop-bukkit/src/main/java/com/ghostchu/quickshop/shop/SimpleShopManager.java:356-372 | null when the shoppable check is on and fails; otherwise the shop filed at the location under its own chunk |
| ShopIndex.AddShop | quickshop-bukkit/src/main/java/com/ghostchu/quickshop/shop/SimpleShopManager.java:493-511 | the shop is then found at its location; every other entry is unchanged; buckets are only created, never dropped; the directory stays free of empty worlds and consistent |
| ShopIndex.FindAfterAdd | quickshop-bukkit/src/main/java/com/ghostchu/quickshop/shop/SimpleShopManager.java:493-511 | lookup after add: the new shop at its own location, any other lookup as before |
| ShopIndex.RemoveShop | quickshop-bukkit/src/main/java/com/ghostchu/quickshop/shop/SimpleShopManager.java:520-532 | fails exactly when the world has no bucket; otherwise deletes only the entry at the shop's location, is a no-op when the chunk bucket is absent, keeps all buckets and both invariants |
| ShopIndex.AddThenRemoveRestores | quickshop-bukkit/src/main/java/com/ghostchu/quickshop/shop/SimpleShopManager.java:493-532 | adding a shop at a free location and then removing it leaves every entry as it was |
| ShopIndex.AllShops | quickshop-bukkit/src/main/java/com/ghostchu/quickshop/shop/SimpleShopManager.java:579-587 | `getAllShops` lists a shop exactly when it is filed under some world, chunk and location |
| ShopIndex.AllShopsOfConsistent | quickshop-bukkit/src/main/java/com/ghostchu/quickshop/shop/SimpleShopManager.java:579-587 | in a consistent directory every shop is listed once, and the list is exactly the shops found at their own location |
| ShopIndex.PlayerAllShops | quickshop-bukkit/src/main/java/com/ghostchu/quickshop/shop/SimpleShopManager.java:561-569 | only shops the player owns are listed |
| ShopIndex.PlayerAllShopsOfConsistent | quickshop-bukkit/src/main/java/com/ghostchu/quickshop/shop/SimpleShopManager.java:561-569 | in a consistent directory the player's list holds each of the player's filed shops exactly once |
| ShopIteration.Start | quickshop-bukkit/src/main/java/com/ghostchu/quickshop/shop/SimpleShopManager.java:1629-1631 | a new iterator has exactly `getAllShops()` ahead of it |
| ShopIteration.HasNext | quickshop-bukkit/src/main/java/com/ghostchu/quickshop/shop/SimpleShopManager.java:1637-1653 | true exactly when shops remain; hands nothing out; when true, the current chunk iterator has an element |
| ShopIteration.Next | quickshop-bukkit/src/main/java/com/ghostchu/quickshop/shop/SimpleShopManager.java:1658-1672 | on success hands out the first remaining shop and keeps the rest; throws when nothing remains; never throws while shops remain and no world ahead lacks chunk buckets |
| ShopIteration.NextAfterHasNext | quickshop-bukkit/src/main/java/com/ghostchu/quickshop/shop/SimpleShopManager.java:1637-1672 | after `hasNext()` returns true, `next()` succeeds |
| ShopIteration.StartOfValidIndex | quickshop-bukkit/src/main/java/com/ghostchu/quickshop/shop/SimpleShopManager.java:1629-1631 | a directory with no empty world gives an iterator with no empty world ahead |
| ShopIteration.EmptyIndexYieldsNothing | quickshop-bukkit/src/main/java/com/ghostchu/quickshop/shop/SimpleShopManager.java:1637-1663 | on an empty directory `hasNext()` is false and `next()` throws |
| ShopIteration.NextThrowsOnEmptyWorld | quickshop-bukkit/src/main/java/com/ghostchu/quickshop/shop/SimpleShopManager.java:1658-1666 | `next()` alone throws on a world without chunk buckets although a shop remains behind it |
| ShopIteration.Drain | quickshop-bukkit/src/main/java/com/ghostchu/quickshop/shop/SimpleShopManager.java:1637-1672 | the `hasNext()`/`next()` loop hands out exactly the remaining shops, in order |
| ShopIteration.WalkAll | quickshop-bukkit/src/main/java/com/ghostchu/quickshop/shop/SimpleShopManager.java:1621-1672 | iterating a new iterator yields exactly `getAllShops()`; in a consistent directory each filed shop exactly once |
| Limits.IsReachedLimit | quickshop-bukkit/src/main/java/com/ghostchu/quickshop/shop/SimpleShopManager.java:154-172 | with limits disabled the limit is never reached |
| Limits.ReachedLimitCountsOwnedShops | quickshop-bukkit/src/main/java/com/ghostchu/quickshop/shop/SimpleShopManager.java:154-172 | with limits on, the limit is reached exactly when the player already owns at least `max` counted shops (all shops under the old algorithm, limited shops under the new one) |
| Limits.NewAlgorithmCountsFewer | quickshop-bukkit/src/main/java/com/ghostchu/quickshop/shop/SimpleShopManager.java:157-167 | reaching the limit under the new algorithm implies reaching it under the old |
| Limits.RegisterUpdatesOwnedShops | quickshop-bukkit/src/main/java/com/ghostchu/quickshop/shop/SimpleShopManager.java:493-511 | filing a shop at a free location adds exactly that shop to its owner's counted shops when it counts, and changes nothing else |
| Tax.GetTax | quickshop-bukkit/src/main/java/com/ghostchu/quickshop/shop/SimpleShopManager.java:776-800 | the rate lies in [0,1); it is 0 for the owner, for an online player with `quickshop.tax`, or with `quickshop.tax.bypassunlimited` on an unlimited shop, and for a configured rate outside [0,1); otherwise it is the configured rate |
| Tax.OwnerPaysNoTax | quickshop-bukkit/src/main/java/com/ghostchu/quickshop/shop/SimpleShopManager.java:797-799 | the owner pays no tax whatever the configuration |
| Tax.OfflinePermissionsIgnored | quickshop-bukkit/src/main/java/com/ghostchu/quickshop/shop/SimpleShopManager.java:779-790 | an offline player's permissions do not change the rate |
| TradeAll.FloorQuotient | quickshop-bukkit/src/main/java/com/ghostchu/quickshop/shop/SimpleShopManager.java:1524 | for a positive price, the most items the balance pays for (r·p <= b < (r+1)·p within `int` range); a zero price gives MAX, MIN or 0 |
| TradeAll.TruncatedQuotient | quickshop-bukkit/src/main/java/com/ghostchu/quickshop/shop/SimpleShopManager.java:1562 | for a positive price and a balance >= 0, the most items the balance pays for; a negative balance is rounded toward zero: (r-1)·p < b <= r·p, so a debt under one price gives 0 and a debt of one price or more gives < 0 |
| TradeAll.SellingAll | quickshop-bukkit/src/main/java/com/ghostchu/quickshop/shop/SimpleShopManager.java:1509-1549 | the largest amount within the player's space, what the balance pays for, and the stock when counted; refused exactly when no positive amount fits; the cause is the stock when counted and below 1, else the player's space when it is 0 or less, else money, and each cause is real |
| TradeAll.BuyingAll | quickshop-bukkit/src/main/java/com/ghostchu/quickshop/shop/SimpleShopManager.java:1551-1604 | the largest amount within the player's items, the shop's space when counted, and what the owner can pay when the owner pays; refused exactly when none fits; the cause is "no space" exactly for a shop space of 0, else the owner's money when the owner pays and cannot pay for one item, else the player's items; each cause is real |
| TradeAll.BuyingAllAsWritten | quickshop-bukkit/src/main/java/com/ghostchu/quickshop/shop/SimpleShopManager.java:1551-1604 | the source's amount: largest within its bounds, refused exactly when none fits; only the three buying causes; "no space" exactly for a shop space of 0, else the owner message exactly when the owner pays and the truncated quotient is exactly 0, else "not enough items" |
| TradeAll.AsWrittenMisreportsOwnerDebt | quickshop-bukkit/src/main/java/com/ghostchu/quickshop/shop/SimpleShopManager.java:1585-1598 | an owner in debt is reported as the player lacking items |
| TradeAll.AsWrittenCapsUnpaidOwner | quickshop-bukkit/src/main/java/com/ghostchu/quickshop/shop/SimpleShopManager.java:1566-1576 | an unlimited counting shop whose owner is not paid still refuses for the owner's lack of money |
| TradeAll.CorrectionAgreesWhenOwnerPaysAndSolvent | quickshop-bukkit/src/main/java/com/ghostchu/quickshop/shop/SimpleShopManager.java:1551-1604 | the correction changes nothing when the owner pays and is not in debt |
| TradeAll.SellingAllBalanceBinds | quickshop-bukkit/src/main/java/com/ghostchu/quickshop/shop/SimpleShopManager.java:1509-1549 | stock 3, space 10, balance 2 at price 1 gives 2 |
| TradeAll.BuyingAllSpaceBinds | quickshop-bukkit/src/main/java/com/ghostchu/quickshop/shop/SimpleShopManager.java:1551-1604 | shop space 5, 8 items held, a rich owner, price 1 gives 5 |
| Interaction.ChatTask | quickshop-bukkit/src/main/java/com/ghostchu/quickshop/shop/SimpleShopManager.java:452-470 | the player's pending action is removed and nothing else changes; nothing happens without one; the line is dispatched exactly when the player is in the shop's world within squared distance 25, to creation or trading as the action asks |
| Interaction.HandleChat | quickshop-bukkit/src/main/java/com/ghostchu/quickshop/shop/SimpleShopManager.java:440-471 | a task is scheduled exactly when the player had a pending action as the line arrived; that run removes the action present when it runs and dispatches only that one |
| Interaction.SecondDeliveryDoesNothing | quickshop-bukkit/src/main/java/com/ghostchu/quickshop/shop/SimpleShopManager.java:454-458 | a second task for the same player finds nothing and changes nothing |
| Interaction.AtMostOneDispatch | quickshop-bukkit/src/main/java/com/ghostchu/quickshop/shop/SimpleShopManager.java:452-470 | of two tasks for one player at most one dispatches, and other players' actions stay |
| Interaction.DispatchedWhenStillAtShop | quickshop-bukkit/src/main/java/com/ghostchu/quickshop/shop/SimpleShopManager.java:440-470 | with no interference, the line is dispatched exactly when the player is still at the shop |
| Interaction.OtherWorldDropped | quickshop-bukkit/src/main/java/com/ghostchu/quickshop/shop/SimpleShopManager.java:459-463 | a player in another world is told they are not looking at the shop |
| TradeGates.ParseAmount | quickshop-bukkit/src/main/java/com/ghostchu/quickshop/shop/SimpleShopManager.java:1433-1434 | not numeric exactly for empty or non-digit strings; a digit string beyond `int` range throws; otherwise its decimal value |
| TradeGates.DigitsRoundTrip | quickshop-bukkit/src/main/java/com/ghostchu/quickshop/shop/SimpleShopManager.java:1433-1434 | reading back the decimal digits of n gives n |
| TradeGates.ParseOfDigits | quickshop-bukkit/src/main/java/com/ghostchu/quickshop/shop/SimpleShopManager.java:1433-1434 | every amount in `int` range typed as digits is read as itself |
| TradeGates.TaxModifier | quickshop-bukkit/src/main/java/com/ghostchu/quickshop/shop/SimpleShopManager.java:656-684 | the transaction's tax is `getTax`'s rate: the configured rate when it lies in [0,1) and the player is not the owner or exempt, otherwise 0; and 0 for unlimited shops when they are configured tax-free |
| TradeGates.InvalidReason | quickshop-bukkit/src/main/java/com/ghostchu/quickshop/shop/SimpleShopManager.java:1392-1406 | `shopIsNotValid` passes exactly when the economy is loaded, the block is usable and the shop is unchanged; otherwise its message is the first of these that fails |
| TradeGates.OwnerParty | quickshop-bukkit/src/main/java/com/ghostchu/quickshop/shop/SimpleShopManager.java:685-691 | the owner is a party unless the shop is unlimited and unlimited owners are not paid |
| TradeGates.ActionBuying | quickshop-bukkit/src/main/java/com/ghostchu/quickshop/shop/SimpleShopManager.java:608-691 | proceeds exactly when permitted, still valid, 1 <= amount, within the shop's space (-1 read as 10000) and the player's items; each numeric rejection happens exactly when permission and validity hold, the earlier numeric checks pass and its own fails; "no permission" exactly when the player may not trade, then the `shopIsNotValid` messages in their order, each as an if-and-only-if; the owner pays the player amount × price at the rate of `TaxModifier` |
| TradeGates.ActionSelling | quickshop-bukkit/src/main/java/com/ghostchu/quickshop/shop/SimpleShopManager.java:1076-1164 | proceeds exactly when permitted, still valid, 1 <= amount, within the stock (-1 read as 10000) and the player's space; each numeric rejection happens exactly when permission and validity hold, the earlier numeric checks pass and its own fails; "no permission" exactly when the player may not trade, then the `shopIsNotValid` messages in their order, each as an if-and-only-if; the player pays the owner amount × price at the rate of `TaxModifier` |
| TradeGates.ActionTrade | quickshop-bukkit/src/main/java/com/ghostchu/quickshop/shop/SimpleShopManager.java:1408-1469 | a trade proceeds only with the economy loaded, on the clicked shop still filed there and unchanged since the click, with creative trading allowed, for a positive amount that the line asks for; it throws only for an overflowing number; a refused trade-all never proceeds; "not an integer" only for lines that are neither a number nor the trade-all word |
| TradeGates.OtherLineIsNotAnInteger | quickshop-bukkit/src/main/java/com/ghostchu/quickshop/shop/SimpleShopManager.java:1440-1461 | at a ready shop a line that is neither a number nor the trade-all word gets "not an integer" and nothing else |
| TradeGates.ActionTradeOrder | quickshop-bukkit/src/main/java/com/ghostchu/quickshop/shop/SimpleShopManager.java:1410-1431 | the economy check comes first, then a missing or unusable shop, then creative mode, then a changed shop, each with its own message |
| TradeGates.OverflowingNumberThrows | quickshop-bukkit/src/main/java/com/ghostchu/quickshop/shop/SimpleShopManager.java:1433-1434 | at a ready shop a digit string beyond `int` range throws from `parseInt` |
| TradeGates.StaleSnapshotNeverTrades | quickshop-bukkit/src/main/java/com/ghostchu/quickshop/shop/SimpleShopManager.java:1428-1431 | a shop that changed since the click is never traded |
| TradeGates.TradeAllTradesResolvedAmount | quickshop-bukkit/src/main/java/com/ghostchu/quickshop/shop/SimpleShopManager.java:1432-1465 | at a ready counting shop the trade-all word trades exactly the resolved amount, and a refusal sends its cause and trades nothing |
| TradeGates.TypedAmountProceeds | quickshop-bukkit/src/main/java/com/ghostchu/quickshop/shop/SimpleShopManager.java:1432-1465 | at a ready shop a typed number proceeds exactly when positive and within the bounds for the shop's type |
| TradeGates.UnlimitedOwnerNotCharged | quickshop-bukkit/src/main/java/com/ghostchu/quickshop/shop/SimpleShopManager.java:685-691 | with unlimited owners unpaid, an unlimited shop's owner is no party to another player's trade; the trading player always is |

## Left out

- `getTax` stops before `ShopTaxEvent` (lines 802-804). Other plugins can replace the rate there.
- `ShopPurchaseEvent` can cancel a trade or change its total. `TradeGates.Plan.total` is the total before that event.
- Everything from `transaction.checkBalance()` onward is out: the economy transaction, success messages, logging and `notifySold`/`notifyBought`.
- `allowLoan` in `actionSelling` is an economy setting and is not part of the plan.
- `createShop`, `actionCreate`, `registerShop` and the database callbacks are out. So are sign and block handling (`processWaterLoggedSign`, `canBeShop`, `findShopIncludeAttached`, double chests), `clear`, `getShopsInWorld`, `loadShop`, and the runtime-id cache. These are world, database and time-dependent plumbing. The block answers the trade path needs are parameters.
- `Util.countItems`, `Util.countSpace`, `getRemainingStock`, `getRemainingSpace`, `playerAuthorize`, permissions and economy balances come from code this model does not include. They are inputs.
- Messages, message formatting and `QSHandleChatEvent` are out, and so is colour-code stripping: the chat line reaches the trade path as given.
- The two threads of `handleChat` are modelled as two map states, the one when the line arrives and the one when the main-thread run happens. Concurrent-map thread safety is not modelled.
- Java `Location` keys in the directory compare the world and integer block coordinates. Fractional coordinates, yaw and pitch are not modelled.
- `double` rounding is not modelled. Prices, balances, totals and the distance are exact reals.
- Limits.IsReachedLimit: does not model `int` overflow of `owned + 1`, because it needs over two billion shops.
- TradeGates.ParseAmount: recognises only ASCII digits. `StringUtils.isNumeric` and `Integer.parseInt` also accept other Unicode decimal digits.
- TradeGates.ActionTrade: matches the trade-all word under ASCII case folding only. `equalsIgnoreCase` also folds other letters.
- ShopIteration.Start: takes the whole three-level listing when the iterator is created. The source creates each chunk and shop iterator only when it reaches that world or chunk (lines 1643-1647, 1664-1666), over live concurrent maps. A shop added to a part of the index the walk has not reached yet is returned by the source but not by the model, so `ShopIteration.WalkAll` describes a walk over an index nobody changes meanwhile.
- Interaction.ActionKind: assumes every pending action is either creating or trading, exactly one of them, because `ShopAction` is not part of this model; the source tests `isCreating()` and `isTrading()` separately (lines 464-469).
- ShopIteration.Next: on a world with no chunk bucket the source has already advanced its world iterator when `chunks.next()` throws (lines 1664-1666). The model returns only the error, so it does not describe calling `hasNext()` again after catching it.
- TradeGates.ActionSelling: leaves out the second inventory-space check (lines 1119-1123), which re-counts the same inventory and cannot fire.
- The `else` branch of `actionTrade` for a shop that is neither buying nor selling (lines 1465-1468) cannot be reached with the two shop types, and is not modelled.
- TradeGates.HasChanged: `Info.hasChanged` is not part of this model. It is taken to mean that the shop record differs in any field from the one the player clicked. This includes `alwaysCountingContainer` and the tax account, not only price, item and shop type.
- Tax.GetTax: the configured rate is a `real`. In the source it is a `double`, and a NaN rate passes both range tests (lines 790 and 794) and is returned. So the source does not promise a rate in [0, 1) for every configuration.
- TradeGates.TaxModifier: inherits the same limit from `getTax`. A NaN configured rate would reach the transaction unchanged.
- Interaction.ChatTask: hands a line for a creation action on as `ToCreate`. `actionCreate` itself is not modelled.

## Findings

| source | as written | input that shows it | evidently intended | confidence | as-written member | corrected member |
|---|---|---|---|---|---|---|
| quickshop-bukkit/src/main/java/com/ghostchu/quickshop/shop/SimpleShopManager.java:1585-1598 | the owner-cannot-afford message requires `ownerCanAfford == 0` | a limited buying shop at price 1 with space 5, a player holding 3 items, an owner balance of -10: the quotient is -10, so the player is told they lack items | an owner who cannot pay for one item (`ownerCanAfford < 1`) gets the owner message | not executed | TradeAll.AsWrittenMisreportsOwnerDebt | TradeAll.BuyingAll |
| quickshop-bukkit/src/main/java/com/ghostchu/quickshop/shop/SimpleShopManager.java:1566-1576 | the owner's balance caps the amount whenever the shop counts its container | an unlimited buying shop with `alwaysCountingContainer` set, unlimited owners not paid, owner balance 0, space 5, 3 items held: refused with "you don't have that many items" | the owner's balance caps the amount only when the owner pays, as in the transaction at lines 685-691, which charges nobody via `from(null)`, and as the comment at lines 1571-1573 says | not executed | TradeAll.AsWrittenCapsUnpaidOwner | TradeAll.BuyingAll |

=== FILE: enumeration.dfy ===
/** Sequences built from maps and from nested sequences.

    A hash map hands out its keys and values in an order of its own choosing.
    `Keys` stands for that order: it is one fixed enumeration of the keys,
    about which nothing is known except that it lists every key exactly once.
    Everything that walks a map walks it in this order, so two walks over the
    same, unchanged map agree. */
module Enumeration {

  /** No element occurs twice. */
  ghost predicate Distinct<T>(s: seq<T>) {
    forall i, j :: 0 <= i < j < |s| ==> s[i] != s[j]
  }

  /** The keys of `m`, each exactly once, in the map's iteration order. */
  ghost function Keys<K(!new), V>(m: map<K, V>): (ks: seq<K>)
    ensures |ks| == |m|
    ensures forall k :: k in ks <==> k in m
    ensures Distinct(ks)
    decreases |m|
  {
    if |m| == 0 then []
    else
      var k :| k in m;
      var rest := m - {k};
      assert rest.Keys == m.Keys - {k};
      [k] + Keys(rest)
  }

  /** The values of `m`, one per key, in the map's iteration order
      (`Map.values()` of the source). */
  ghost function Values<K(!new), V>(m: map<K, V>): (vs: seq<V>)
    ensures |vs| == |m|
  {
    var ks := Keys(m);
    seq(|ks|, i requires 0 <= i < |ks| => m[ks[i]])
  }

  /** A value is listed exactly when some key maps to it. */
  lemma ValuesMembership<K(!new), V>(m: map<K, V>, v: V)
    ensures v in Values(m) <==> exists k :: k in m && m[k] == v
  {
    var ks := Keys(m);
    if v in Values(m) {
      var i :| 0 <= i < |ks| && Values(m)[i] == v;
      assert ks[i] in m && m[ks[i]] == v;
    }
    if k :| k in m && m[k] == v {
      var i :| 0 <= i < |ks| && ks[i] == k;
      assert Values(m)[i] == v;
    }
  }

  /** A map that never sends two keys to one value lists each value once. */
  lemma ValuesDistinct<K(!new), V>(m: map<K, V>)
    requires forall k, k' :: k in m && k' in m && k != k' ==> m[k] != m[k']
    ensures Distinct(Values(m))
  {
    var ks := Keys(m);
    forall i, j | 0 <= i < j < |ks|
      ensures Values(m)[i] != Values(m)[j]
    {
      assert ks[i] != ks[j];
    }
  }

  /** The concatenation of a sequence of sequences, front to back. */
  function Concat<T(!new)>(ss: seq<seq<T>>): (r: seq<T>)
    ensures |ss| > 0 ==> |r| >= |ss[0]|
    ensures forall x :: x in r <==> exists i :: 0 <= i < |ss| && x in ss[i]
  {
    if |ss| == 0 then []
    else
      var rest := Concat(ss[1..]);
      assert forall x :: x in rest <==> exists i :: 1 <= i < |ss| && x in ss[i] by {
        forall x | x in rest ensures exists i :: 1 <= i < |ss| && x in ss[i] {
          var i :| 0 <= i < |ss[1..]| && x in ss[1..][i];
          assert x in ss[i + 1];
        }
        forall x | exists i :: 1 <= i < |ss| && x in ss[i] ensures x in rest {
          var i :| 1 <= i < |ss| && x in ss[i];
          assert x in ss[1..][i - 1];
        }
      }
      ss[0] + rest
  }

  lemma ConcatCons<T(!new)>(s: seq<T>, ss: seq<seq<T>>)
    ensures Concat([s] + ss) == s + Concat(ss)
  {
    assert ([s] + ss)[1..] == ss;
  }

  /** Two duplicate-free sequences without a common element join into a
      duplicate-free sequence. */
  lemma DistinctAppend<T>(a: seq<T>, b: seq<T>)
    requires Distinct(a) && Distinct(b)
    requires forall x :: x in a ==> x !in b
    ensures Distinct(a + b)
  {
    forall i, j | 0 <= i < j < |a + b|
      ensures (a + b)[i] != (a + b)[j]
    {
      if j >= |a| && i < |a| {
        assert (a + b)[i] in a;
        assert (a + b)[j] == b[j - |a|];
      }
    }
  }

  /** Concatenating duplicate-free, pairwise disjoint parts gives a
      duplicate-free whole. */
  lemma {:induction false} ConcatDistinct<T(!new)>(ss: seq<seq<T>>)
    requires forall i :: 0 <= i < |ss| ==> Distinct(ss[i])
    requires forall i, j, x :: 0 <= i < j < |ss| && x in ss[i] ==> x !in ss[j]
    ensures Distinct(Concat(ss))
  {
    if |ss| > 0 {
      var rest := ss[1..];
      assert forall i, j, x :: 0 <= i < j < |rest| && x in rest[i] ==> x !in rest[j] by {
        forall i, j, x | 0 <= i < j < |rest| && x in rest[i] ensures x !in rest[j] {
          assert rest[i] == ss[i + 1] && rest[j] == ss[j + 1];
        }
      }
      ConcatDistinct(rest);
      assert forall j :: 0 <= j < |rest| ==> rest[j] == ss[j + 1];
      DistinctAppend(ss[0], Concat(rest));
    }
  }

  /** The elements of `s` that satisfy `keep`, in their original order. */
  function Filter<T(!new)>(s: seq<T>, keep: T -> bool): (r: seq<T>)
    ensures |r| <= |s|
    ensures forall x :: x in r <==> x in s && keep(x)
    ensures Distinct(s) ==> Distinct(r)
  {
    if |s| == 0 then []
    else
      var rest := Filter(s[1..], keep);
      assert Distinct(s) ==> s[0] !in s[1..];
      if keep(s[0]) then
        assert Distinct(s) ==> Distinct([s[0]] + rest) by {
          if Distinct(s) {
            DistinctAppend([s[0]], rest);
          }
        }
        [s[0]] + rest
      else rest
  }

  /** A duplicate-free sequence has as many elements as the set of its
      elements. */
  lemma {:induction false} DistinctCardinality<T>(s: seq<T>)
    requires Distinct(s)
    ensures |set x | x in s| == |s|
  {
    if |s| > 0 {
      DistinctCardinality(s[1..]);
      assert (set x | x in s) == (set x | x in s[1..]) + {s[0]};
      assert s[0] !in s[1..];
    }
  }

  /** Two levels of concatenation: the elements of the innermost sequences,
      outer level first. */
  function Flatten<T(!new)>(v: seq<seq<seq<T>>>): (r: seq<T>)
  {
    Concat(seq(|v|, i requires 0 <= i < |v| => Concat(v[i])))
  }

  /** An element is in the flattening exactly when it is in one of the
      innermost sequences. */
  lemma FlattenMembership<T(!new)>(v: seq<seq<seq<T>>>, x: T)
    ensures x in Flatten(v) <==>
      exists i, j :: 0 <= i < |v| && 0 <= j < |v[i]| && x in v[i][j]
  {
    var outer := seq(|v|, i requires 0 <= i < |v| => Concat(v[i]));
    if x in Flatten(v) {
      var i :| 0 <= i < |outer| && x in outer[i];
      var j :| 0 <= j < |v[i]| && x in v[i][j];
    }
    if i, j :| 0 <= i < |v| && 0 <= j < |v[i]| && x in v[i][j] {
      assert x in outer[i];
    }
  }

  /** Peeling the first outer element off a flattening. */
  lemma FlattenCons<T(!new)>(v: seq<seq<seq<T>>>)
    requires |v| > 0
    ensures Flatten(v) == Concat(v[0]) + Flatten(v[1..])
  {
    var outer := seq(|v|, i requires 0 <= i < |v| => Concat(v[i]));
    var rest := seq(|v| - 1, i requires 0 <= i < |v| - 1 => Concat(v[1..][i]));
    assert outer == [Concat(v[0])] + rest;
    ConcatCons(Concat(v[0]), rest);
  }
}

=== FILE: interaction.dfy ===
/** `handleChat`: a player's chat line answers the shop action they started
    by clicking a shop. The pending action is taken out of the per-player
    map by a task that runs later on the main thread; only that removal
    decides whether the line is acted on. */
module Interaction {
  import opened Wrappers
  import opened Shops

  /** What the player was asked for when they clicked. */
  datatype ActionKind = Create | Trade

  /** A pending action: the clicked block, what is being asked, and the
      shop as it was when the player clicked (none for creation). */
  datatype Info = Info(location: Location, action: ActionKind, snapshot: Option<Shop>)

  /** The pending actions, one per player. */
  type Actions = map<ActorId, Info>

  /** Where the chat line goes once the scheduled run is over. */
  datatype Dispatch =
    | NothingPending               // the action was already taken (or never there)
    | NotLookingAtShop             // not-looking-at-shop: dropped
    | ToCreate(info: Info, message: string)
    | ToTrade(info: Info, message: string)
  {
    predicate Dispatched() {
      ToCreate? || ToTrade?
    }
  }

  /** Squared distance from the clicked block's corner to the player. */
  function DistanceSquared(loc: Location, pos: Position): (d: real)
    ensures d >= 0.0
  {
    var dx := loc.x as real - pos.x;
    var dy := loc.y as real - pos.y;
    var dz := loc.z as real - pos.z;
    SquareNonNegative(dx);
    SquareNonNegative(dy);
    SquareNonNegative(dz);
    dx * dx + dy * dy + dz * dz
  }

  lemma SquareNonNegative(a: real)
    ensures a * a >= 0.0
  {
    if a < 0.0 {
      assert a * a == (-a) * (-a);
    }
  }

  /** The player is still at the shop: same world, within 5 blocks. */
  predicate StillAtShop(info: Info, pos: Position) {
    info.location.world == pos.world && DistanceSquared(info.location, pos) <= 25.0
  }

  /** The main-thread task of `handleChat`: removes the player's pending
      action; with none it does nothing, a player who has left the shop is
      told so, and otherwise the line goes to creation or trading as the
      action asks. */
  function ChatTask(actions: Actions, player: Player, message: string): (r: (Actions, Dispatch))
    ensures r.0 == actions - {player.id}
    ensures player.id !in actions <==> r.1 == NothingPending
    ensures r.1.Dispatched() <==> player.id in actions && StillAtShop(actions[player.id], player.position)
    ensures r.1.Dispatched() ==> r.1.info == actions[player.id] && r.1.message == message
    ensures r.1.ToCreate? ==> r.1.info.action.Create?
    ensures r.1.ToTrade? ==> r.1.info.action.Trade?
  {
    var remaining := actions - {player.id};
    if player.id !in actions then (remaining, NothingPending)
    else
      var info := actions[player.id];
      if info.location.world != player.position.world
         || DistanceSquared(info.location, player.position) > 25.0 then
        (remaining, NotLookingAtShop)
      else if info.action.Create? then (remaining, ToCreate(info, message))
      else (remaining, ToTrade(info, message))
  }

  /** `handleChat`: a chat line schedules a main-thread run only when the player had
      a pending action as the line arrived; that run then sees the map as it
      is when it runs, which other tasks may have changed meanwhile. */
  function HandleChat(atChat: Actions, atRun: Actions, player: Player, message: string): (r: Option<(Actions, Dispatch)>)
    ensures r.None? <==> player.id !in atChat
    ensures r.Some? ==> r.value.0 == atRun - {player.id}
    ensures r.Some? && r.value.1.Dispatched() ==> player.id in atRun && r.value.1.info == atRun[player.id]
  {
    if player.id !in atChat then None
    else Some(ChatTask(atRun, player, message))
  }

  /** Delivered twice, the second task finds nothing and changes nothing. */
  lemma SecondDeliveryDoesNothing(actions: Actions, player: Player, first: string, second: string)
    ensures var after := ChatTask(actions, player, first).0;
      ChatTask(after, player, second) == (after, NothingPending)
  {
    var after := ChatTask(actions, player, first).0;
    assert player.id !in after;
    assert after - {player.id} == after;
  }

  /** Of two tasks for the same player, with no new action registered in
      between, at most one dispatches; any other player's actions are left
      in place. */
  lemma AtMostOneDispatch(actions: Actions, player: Player, later: Player, first: string, second: string)
    requires later.id == player.id
    ensures var (after, d1) := ChatTask(actions, player, first);
      var (after2, d2) := ChatTask(after, later, second);
      !(d1.Dispatched() && d2.Dispatched()) &&
      forall a :: a in actions && a != player.id ==> a in after2 && after2[a] == actions[a]
  {
  }

  /** When the player has not moved between the click and the line, and
      nothing else consumed the action, the line is dispatched exactly when
      the player stands within 5 blocks of the shop in its world. */
  lemma DispatchedWhenStillAtShop(actions: Actions, player: Player, message: string)
    requires player.id in actions
    ensures var r := HandleChat(actions, actions, player, message);
      r.Some? && (r.value.1.Dispatched() <==> StillAtShop(actions[player.id], player.position))
  {
  }

  /** A player in another world never gets a dispatch, however close the
      coordinates. */
  lemma OtherWorldDropped(actions: Actions, player: Player, message: string)
    requires player.id in actions
    requires actions[player.id].location.world != player.position.world
    ensures ChatTask(actions, player, message).1 == NotLookingAtShop
  {
  }
}

=== FILE: limits.dfy ===
/** `isReachedLimit`: whether a player may not create another shop. */
module Limits {
  import opened Wrappers
  import opened Enumeration
  import opened Shops
  import ShopIndex

  /** Whether a shop counts against its owner's limit: every shop under the
      old algorithm, only limited shops under the new one. */
  predicate CountsAgainstLimit(shop: Shop, oldAlgorithm: bool) {
    oldAlgorithm || Limited(shop)
  }

  /** The shops of `shops` the player owns that count against the limit. */
  ghost function Counted(shops: seq<Shop>, player: ActorId, oldAlgorithm: bool): set<Shop> {
    set s | s in shops && s.owner == player && CountsAgainstLimit(s, oldAlgorithm)
  }

  /** The player's filed shops that count against the limit. */
  ghost function OwnedShops(idx: ShopIndex.Index, player: ActorId, oldAlgorithm: bool): set<Shop> {
    Counted(ShopIndex.AllShops(idx), player, oldAlgorithm)
  }

  /** Counting over a list that gained one new shop. */
  lemma CountedAfterInsert(before: seq<Shop>, after: seq<Shop>, shop: Shop, player: ActorId, oldAlgorithm: bool)
    requires shop !in before
    requires forall t :: t in after <==> t in before || t == shop
    ensures Counted(after, player, oldAlgorithm) ==
      if shop.owner == player && CountsAgainstLimit(shop, oldAlgorithm)
      then Counted(before, player, oldAlgorithm) + {shop}
      else Counted(before, player, oldAlgorithm)
  {
  }

  /** A shop that is not unlimited. */
  predicate Limited(s: Shop) {
    !s.unlimited
  }

  /** `isReachedLimit(p)`: with limits disabled never; otherwise when one
      more shop would exceed `max`, counting the shops of
      `getPlayerAllShops` under the chosen algorithm. */
  ghost function IsReachedLimit(
    limitsEnabled: bool, oldAlgorithm: bool, idx: ShopIndex.Index, player: ActorId, max: int): (r: bool)
    ensures !limitsEnabled ==> !r
  {
    if limitsEnabled then
      var mine := ShopIndex.PlayerAllShops(idx, player);
      var owned := if oldAlgorithm then |mine| else |Filter(mine, Limited)|;
      owned + 1 > max
    else false
  }

  /** With limits enabled on a consistent index, the limit is reached exactly
      when the player already owns `max` or more counted shops. */
  lemma ReachedLimitCountsOwnedShops(oldAlgorithm: bool, idx: ShopIndex.Index, player: ActorId, max: int)
    requires ShopIndex.Consistent(idx)
    ensures IsReachedLimit(true, oldAlgorithm, idx, player, max) <==>
      |OwnedShops(idx, player, oldAlgorithm)| >= max
  {
    var all := ShopIndex.AllShops(idx);
    var mine := ShopIndex.PlayerAllShops(idx, player);
    ShopIndex.AllShopsOfConsistent(idx);
    var counted := if oldAlgorithm then mine else Filter(mine, Limited);
    assert Distinct(counted);
    assert forall s :: s in counted <==> s in all && s.owner == player && CountsAgainstLimit(s, oldAlgorithm);
    CountedListSize(all, counted, player, oldAlgorithm);
  }

  /** A duplicate-free list of exactly the counted shops is as long as the
      set of them. */
  lemma CountedListSize(all: seq<Shop>, counted: seq<Shop>, player: ActorId, oldAlgorithm: bool)
    requires Distinct(counted)
    requires forall s :: s in counted <==> s in all && s.owner == player && CountsAgainstLimit(s, oldAlgorithm)
    ensures |counted| == |Counted(all, player, oldAlgorithm)|
  {
    DistinctCardinality(counted);
    assert (set s | s in counted) == Counted(all, player, oldAlgorithm);
  }

  /** The new algorithm never counts more shops than the old one, so a
      player at the limit under the new algorithm is at it under the old. */
  lemma NewAlgorithmCountsFewer(idx: ShopIndex.Index, player: ActorId, max: int)
    ensures IsReachedLimit(true, false, idx, player, max) ==> IsReachedLimit(true, true, idx, player, max)
  {
  }

  /** Registering a shop at a free location adds exactly that shop to the
      player's counted shops when it is theirs and counts; otherwise the
      count is unchanged. */
  lemma RegisterUpdatesOwnedShops(idx: ShopIndex.Index, shop: Shop, player: ActorId, oldAlgorithm: bool)
    requires ShopIndex.Consistent(idx)
    requires ShopIndex.Find(idx, shop.location.world, shop.location) == None
    ensures var after := ShopIndex.AddShop(idx, shop.location.world, shop);
      OwnedShops(after, player, oldAlgorithm) ==
        if shop.owner == player && CountsAgainstLimit(shop, oldAlgorithm)
        then OwnedShops(idx, player, oldAlgorithm) + {shop}
        else OwnedShops(idx, player, oldAlgorithm)
    ensures shop !in OwnedShops(idx, player, oldAlgorithm)
  {
    var world := shop.location.world;
    var after := ShopIndex.AddShop(idx, world, shop);
    var all := ShopIndex.AllShops(idx);
    var all' := ShopIndex.AllShops(after);
    ShopIndex.AllShopsOfConsistent(idx);
    ShopIndex.AllShopsOfConsistent(after);
    forall t: Shop ensures t in all' <==> t in all || t == shop {
      ShopIndex.FindAfterAdd(idx, world, shop, t.location.world, t.location);
    }
    assert shop !in all;
    CountedAfterInsert(all, all', shop, player, oldAlgorithm);
  }
}

=== FILE: shop_index.dfy ===
/** The in-memory shop directory of `SimpleShopManager`: a map from world
    name to chunk key to block location to shop, with each level created on
    first use. */
module ShopIndex {
  import opened Wrappers
  import opened Enumeration
  import opened Shops

  type ChunkShops = map<Location, Shop>
  type WorldShops = map<Chunk, ChunkShops>
  type Index = map<string, WorldShops>

  /** `removeShop` dereferences the world's bucket without a null check: for
      a world that has no bucket it throws a NullPointerException. */
  datatype IndexError = WorldNotIndexed

  /** The shop filed under the exact key (world, chunk, location). */
  function Get(idx: Index, world: string, chunk: Chunk, loc: Location): Option<Shop> {
    if world in idx && chunk in idx[world] && loc in idx[world][chunk]
    then Some(idx[world][chunk][loc])
    else None
  }

  /** The shop filed at `loc` in the bucket of `world`, under the chunk that
      `addShop` and `removeShop` derive from `loc`. */
  function Find(idx: Index, world: string, loc: Location): Option<Shop> {
    Get(idx, world, ChunkOf(world, loc), loc)
  }

  /** Every world bucket holds at least one chunk bucket. */
  ghost predicate NoEmptyWorld(idx: Index) {
    forall w :: w in idx ==> idx[w].Keys != {}
  }

  /** Every shop is filed under its own world, the chunk of its own location
      and its own location; this is how `registerShop` files shops. */
  ghost predicate Consistent(idx: Index) {
    forall w, c, l :: Get(idx, w, c, l).Some? ==>
      var s := Get(idx, w, c, l).value;
      s.location == l && l.world == w && c == ChunkOf(w, l)
  }

  /** `getShops(world, chunkX, chunkZ)`: the bucket of one chunk, or null. */
  function ShopsInChunk(idx: Index, world: string, chunkX: int, chunkZ: int): (r: Option<ChunkShops>)
    ensures r.Some? <==> world in idx && Chunk(world, chunkX, chunkZ) in idx[world]
    ensures forall loc ::
      Get(idx, world, Chunk(world, chunkX, chunkZ), loc) ==
        (if r.Some? && loc in r.value then Some(r.value[loc]) else None)
  {
    if world !in idx then None
    else if Chunk(world, chunkX, chunkZ) !in idx[world] then None
    else Some(idx[world][Chunk(world, chunkX, chunkZ)])
  }

  /** `getShop(loc, skipShopableChecking)`: unless the check is skipped, a
      block that cannot hold a shop yields null; otherwise the location is
      looked up in the chunk bucket its own coordinates select. */
  function GetShop(idx: Index, loc: Location, skipShoppableCheck: bool, blockIsShoppable: bool): (r: Option<Shop>)
    ensures !skipShoppableCheck && !blockIsShoppable ==> r == None
    ensures skipShoppableCheck || blockIsShoppable ==> r == Find(idx, loc.world, loc)
  {
    if !skipShoppableCheck && !blockIsShoppable then None
    else
      match ShopsInChunk(idx, loc.world, ChunkCoord(loc.x), ChunkCoord(loc.z))
      case None => None
      case Some(inChunk) => if loc in inChunk then Some(inChunk[loc]) else None
  }

  /** `addShop(world, shop)`: creates the world bucket and the chunk bucket
      when missing, then files the shop under its location, replacing any
      shop already there. */
  function AddShop(idx: Index, world: string, shop: Shop): (r: Index)
    ensures Find(r, world, shop.location) == Some(shop)
    ensures forall w, c, l ::
      (w != world || c != ChunkOf(world, shop.location) || l != shop.location) ==>
      Get(r, w, c, l) == Get(idx, w, c, l)
    ensures r.Keys == idx.Keys + {world}
    ensures world in idx ==> r[world].Keys == idx[world].Keys + {ChunkOf(world, shop.location)}
    ensures world !in idx ==> r[world].Keys == {ChunkOf(world, shop.location)}
    ensures forall w :: w in idx && w != world ==> r[w] == idx[w]
    ensures NoEmptyWorld(idx) ==> NoEmptyWorld(r)
    ensures Consistent(idx) && world == shop.location.world ==> Consistent(r)
  {
    var inWorld := if world in idx then idx[world] else map[];
    var key := ChunkOf(world, shop.location);
    var inChunk := if key in inWorld then inWorld[key] else map[];
    idx[world := inWorld[key := inChunk[shop.location := shop]]]
  }

  /** `removeShop(shop)`: throws when the shop's world has no bucket; does
      nothing when its chunk has no bucket; otherwise deletes whatever is
      filed at the shop's location. Buckets are never deleted. */
  function RemoveShop(idx: Index, shop: Shop): (r: Result<Index, IndexError>)
    ensures r.Failure? <==> shop.location.world !in idx
    ensures r.Success? ==> Find(r.value, shop.location.world, shop.location) == None
    ensures r.Success? ==> forall w, c, l ::
      (w != shop.location.world || c != ChunkOf(w, shop.location) || l != shop.location) ==>
      Get(r.value, w, c, l) == Get(idx, w, c, l)
    ensures r.Success? ==> r.value.Keys == idx.Keys
    ensures r.Success? ==> forall w :: w in idx ==> r.value[w].Keys == idx[w].Keys
    ensures r.Success? && ChunkOf(shop.location.world, shop.location) !in idx[shop.location.world] ==>
      r.value == idx
    ensures r.Success? && NoEmptyWorld(idx) ==> NoEmptyWorld(r.value)
    ensures r.Success? && Consistent(idx) ==> Consistent(r.value)
  {
    var loc := shop.location;
    if loc.world !in idx then Failure(WorldNotIndexed)
    else
      var inWorld := idx[loc.world];
      var key := ChunkOf(loc.world, loc);
      if key !in inWorld then Success(idx)
      else Success(idx[loc.world := inWorld[key := inWorld[key] - {loc}]])
  }

  /** Lookup after `addShop`: the shop is found at its own location in the
      world it was added under, and every other lookup is as before. */
  lemma FindAfterAdd(idx: Index, world: string, shop: Shop, w: string, loc: Location)
    ensures Find(AddShop(idx, world, shop), w, loc) ==
      if w == world && loc == shop.location then Some(shop) else Find(idx, w, loc)
  {
  }

  /** Registering a shop at a free location and removing it again leaves
      every filed shop as it was; only the (now possibly empty) buckets that
      registration created remain. */
  lemma AddThenRemoveRestores(idx: Index, shop: Shop)
    requires Find(idx, shop.location.world, shop.location) == None
    ensures var r := RemoveShop(AddShop(idx, shop.location.world, shop), shop);
      r.Success? &&
      Find(r.value, shop.location.world, shop.location) == None &&
      forall w, c, l :: Get(r.value, w, c, l) == Get(idx, w, c, l)
  {
    var world := shop.location.world;
    var added := AddShop(idx, world, shop);
    var r := RemoveShop(added, shop);
    forall w, c, l ensures Get(r.value, w, c, l) == Get(idx, w, c, l) {
      if w == world && c == ChunkOf(world, shop.location) && l == shop.location {
        assert Get(idx, w, c, l) == None;
      }
    }
  }

  /** The shops of one chunk bucket, in its iteration order. */
  ghost function ChunkView(inChunk: ChunkShops): seq<Shop> {
    Values(inChunk)
  }

  /** The chunk buckets of one world, each as its shops, in iteration order. */
  ghost function WorldView(inWorld: WorldShops): (v: seq<seq<Shop>>)
    ensures |v| == |inWorld|
  {
    var cs := Keys(inWorld);
    seq(|cs|, i requires 0 <= i < |cs| => ChunkView(inWorld[cs[i]]))
  }

  /** The whole index as nested sequences, in iteration order: what the
      three levels of `values()` iterators of the source walk through. */
  ghost function View(idx: Index): (v: seq<seq<seq<Shop>>>)
    ensures |v| == |idx|
  {
    var ws := Keys(idx);
    seq(|ws|, i requires 0 <= i < |ws| => WorldView(idx[ws[i]]))
  }

  /** `getAllShops()`: every filed shop, world by world and chunk by chunk;
      a shop is listed exactly when it is filed under some world, chunk and
      location. */
  ghost function AllShops(idx: Index): (r: seq<Shop>)
    ensures forall s :: s in r <==> exists w, c, l :: Get(idx, w, c, l) == Some(s)
  {
    var r := Flatten(View(idx));
    assert forall s :: s in r <==> exists w, c, l :: Get(idx, w, c, l) == Some(s) by {
      forall s ensures s in r <==> exists w, c, l :: Get(idx, w, c, l) == Some(s) {
        ViewMembership(idx, s);
      }
    }
    r
  }

  /** The (i, j) bucket of the view is the chunk bucket filed under the i-th
      world key and that world's j-th chunk key. */
  lemma ViewEntry(idx: Index, i: nat, j: nat)
    requires i < |View(idx)| && j < |View(idx)[i]|
    ensures Keys(idx)[i] in idx
    ensures Keys(idx[Keys(idx)[i]])[j] in idx[Keys(idx)[i]]
    ensures View(idx)[i][j] == Values(idx[Keys(idx)[i]][Keys(idx[Keys(idx)[i]])[j]])
  {
  }

  /** A shop listed by one chunk bucket is filed in the index under that
      world and chunk. */
  lemma ValueIsFiled(idx: Index, w: string, c: Chunk, s: Shop) returns (l: Location)
    requires w in idx && c in idx[w]
    requires s in Values(idx[w][c])
    ensures Get(idx, w, c, l) == Some(s)
  {
    ValuesMembership(idx[w][c], s);
    l :| l in idx[w][c] && idx[w][c][l] == s;
  }

  /** A filed shop appears in the bucket of the view at its world's and its
      chunk's positions in iteration order. */
  lemma FiledIsInView(idx: Index, w: string, c: Chunk, l: Location, s: Shop) returns (i: nat, j: nat)
    requires Get(idx, w, c, l) == Some(s)
    ensures i < |View(idx)| && j < |View(idx)[i]|
    ensures Keys(idx)[i] == w && Keys(idx[w])[j] == c
    ensures s in View(idx)[i][j]
  {
    var ws := Keys(idx);
    i :| 0 <= i < |ws| && ws[i] == w;
    var cs := Keys(idx[w]);
    j :| 0 <= j < |cs| && cs[j] == c;
    ViewEntry(idx, i, j);
    ValuesMembership(idx[w][c], s);
  }

  /** A shop is in the flattened view exactly when it is filed somewhere. */
  lemma ViewMembership(idx: Index, s: Shop)
    ensures s in Flatten(View(idx)) <==> exists w, c, l :: Get(idx, w, c, l) == Some(s)
  {
    var v := View(idx);
    FlattenMembership(v, s);
    if s in Flatten(v) {
      var i, j :| 0 <= i < |v| && 0 <= j < |v[i]| && s in v[i][j];
      ViewEntry(idx, i, j);
      var l := ValueIsFiled(idx, Keys(idx)[i], Keys(idx[Keys(idx)[i]])[j], s);
    }
    if w, c, l :| Get(idx, w, c, l) == Some(s) {
      var i, j := FiledIsInView(idx, w, c, l, s);
    }
  }

  /** In a consistent index `getAllShops()` lists every shop exactly once,
      and lists precisely the shops found at their own location. */
  lemma AllShopsOfConsistent(idx: Index)
    requires Consistent(idx)
    ensures Distinct(AllShops(idx))
    ensures forall s :: s in AllShops(idx) <==> Find(idx, s.location.world, s.location) == Some(s)
  {
    AllShopsDistinct(idx);
  }

  /** Worlds hold disjoint shops and each world lists its shops once, so
      the whole listing is duplicate-free. */
  lemma AllShopsDistinct(idx: Index)
    requires Consistent(idx)
    ensures Distinct(AllShops(idx))
  {
    var v := View(idx);
    var ws := Keys(idx);
    var outer := seq(|v|, i requires 0 <= i < |v| => Concat(v[i]));
    assert AllShops(idx) == Concat(outer);
    forall i | 0 <= i < |v|
      ensures Distinct(outer[i])
      ensures forall s: Shop :: s in outer[i] ==> s.location.world == ws[i]
    {
      WorldViewDistinct(idx, i);
    }
    forall i, j, x | 0 <= i < j < |outer| && x in outer[i]
      ensures x !in outer[j]
    {
      assert ws[i] != ws[j];
    }
    ConcatDistinct(outer);
  }

  /** One chunk bucket of a consistent index lists each shop once, and only
      shops of that world and chunk. */
  lemma ChunkViewDistinct(idx: Index, i: nat, j: nat)
    requires Consistent(idx)
    requires i < |View(idx)| && j < |View(idx)[i]|
    ensures Distinct(View(idx)[i][j])
    ensures forall s: Shop :: s in View(idx)[i][j] ==>
      s.location.world == Keys(idx)[i] && ChunkOf(Keys(idx)[i], s.location) == Keys(idx[Keys(idx)[i]])[j]
  {
    ViewEntry(idx, i, j);
    var w := Keys(idx)[i];
    var c := Keys(idx[w])[j];
    var inChunk := idx[w][c];
    forall l, l' | l in inChunk && l' in inChunk && l != l'
      ensures inChunk[l] != inChunk[l']
    {
      assert Get(idx, w, c, l).Some? && Get(idx, w, c, l').Some?;
    }
    ValuesDistinct(inChunk);
    forall s: Shop | s in View(idx)[i][j]
      ensures s.location.world == w && ChunkOf(w, s.location) == c
    {
      var l := ValueIsFiled(idx, w, c, s);
    }
  }

  /** One world of a consistent index contributes each of its shops once,
      and only shops of that world. */
  lemma WorldViewDistinct(idx: Index, i: nat)
    requires Consistent(idx)
    requires i < |View(idx)|
    ensures Distinct(Concat(View(idx)[i]))
    ensures forall s: Shop :: s in Concat(View(idx)[i]) ==> s.location.world == Keys(idx)[i]
  {
    var w := Keys(idx)[i];
    var cs := Keys(idx[w]);
    var wv := View(idx)[i];
    forall j | 0 <= j < |wv|
      ensures Distinct(wv[j])
      ensures forall s: Shop :: s in wv[j] ==> s.location.world == w && ChunkOf(w, s.location) == cs[j]
    {
      ChunkViewDistinct(idx, i, j);
    }
    ConcatDistinct(wv);
  }

  /** `getPlayerAllShops(player)`: the shops of `getAllShops()` the player owns,
      in the same order. */
  ghost function PlayerAllShops(idx: Index, player: ActorId): (r: seq<Shop>)
    ensures forall s :: s in r ==> s.owner == player
  {
    Filter(AllShops(idx), (s: Shop) => s.owner == player)
  }

  /** In a consistent index the player's list holds each of the player's
      filed shops exactly once. */
  lemma PlayerAllShopsOfConsistent(idx: Index, player: ActorId)
    requires Consistent(idx)
    ensures Distinct(PlayerAllShops(idx, player))
    ensures forall s :: s in PlayerAllShops(idx, player) <==>
      s.owner == player && Find(idx, s.location.world, s.location) == Some(s)
  {
    AllShopsOfConsistent(idx);
  }
}

=== FILE: shop_iterator.dfy ===
/** `SimpleShopManager.ShopIterator`: a lazy walk over the three levels of
    the shop index. Each `Iterator` of the source is modelled by the
    sequence of the elements it has not yet handed out; a level whose
    iterator has not been created yet is `None`. */
module ShopIteration {
  import opened Wrappers
  import opened Enumeration
  import opened Shops
  import ShopIndex

  /** What the iterators of the three levels walk: a chunk's shops, a
      world's chunks, the index's worlds. */
  type ChunkShopList = seq<Shop>
  type WorldChunkList = seq<ChunkShopList>
  type IndexWorldList = seq<WorldChunkList>

  /** `next()` on an exhausted iterator throws. */
  datatype IterationError = NoSuchElement

  datatype ShopIterator = ShopIterator(
    worlds: IndexWorldList,
    chunks: Option<WorldChunkList>,
    shops: Option<ChunkShopList>)

  /** `new ShopIterator()`: starts before the first world of the index. */
  ghost function Start(idx: ShopIndex.Index): (it: ShopIterator)
    ensures Remaining(it) == ShopIndex.AllShops(idx)
  {
    ShopIterator(ShopIndex.View(idx), None, None)
  }

  /** The shops the iterator has yet to hand out, in order. */
  function Remaining(it: ShopIterator): seq<Shop> {
    it.shops.GetOr([]) + Concat(it.chunks.GetOr([])) + Flatten(it.worlds)
  }

  /** Every world still to be visited has at least one chunk bucket. */
  ghost predicate NoEmptyWorldAhead(it: ShopIterator) {
    forall i :: 0 <= i < |it.worlds| ==> it.worlds[i] != []
  }

  /** Number of world and chunk steps left; each recursive step of
      `hasNext` and `next` takes one. */
  function Steps(worlds: IndexWorldList): nat {
    if worlds == [] then 0 else 1 + |worlds[0]| + Steps(worlds[1..])
  }

  function Measure(it: ShopIterator): nat {
    Steps(it.worlds) + |it.chunks.GetOr([])|
  }

  /** `hasNext()`: advances past exhausted chunk and world iterators and
      reports whether a shop is left; it hands nothing out. */
  function HasNext(it: ShopIterator): (r: (bool, ShopIterator))
    ensures r.0 <==> Remaining(it) != []
    ensures Remaining(r.1) == Remaining(it)
    ensures r.0 ==> r.1.shops.Some? && r.1.shops.value != []
    decreases Measure(it)
  {
    if it.shops.Some? && it.shops.value != [] then (true, it)
    else if it.chunks.Some? && it.chunks.value != [] then
      var chunks := it.chunks.value;
      ConcatCons(chunks[0], chunks[1..]);
      assert chunks == [chunks[0]] + chunks[1..];
      HasNext(ShopIterator(it.worlds, Some(chunks[1..]), Some(chunks[0])))
    else if it.worlds == [] then (false, it)
    else
      FlattenCons(it.worlds);
      HasNext(ShopIterator(it.worlds[1..], Some(it.worlds[0]), it.shops))
  }

  /** `next()`: hands out the next shop. When the current chunk is exhausted
      it takes the next chunk bucket, fetching the next world first when the
      current world is exhausted, and calls `next()` on that world's chunk
      iterator without asking `hasNext()`: a world with no chunk bucket makes
      it throw even if later worlds hold shops. */
  function Next(it: ShopIterator): (r: Result<(Shop, ShopIterator), IterationError>)
    ensures r.Success? ==> Remaining(it) == [r.value.0] + Remaining(r.value.1)
    ensures Remaining(it) == [] ==> r.Failure?
    ensures NoEmptyWorldAhead(it) && Remaining(it) != [] ==> r.Success?
    ensures r.Success? && NoEmptyWorldAhead(it) ==> NoEmptyWorldAhead(r.value.1)
    decreases Measure(it)
  {
    if it.shops.Some? && it.shops.value != [] then
      var shops := it.shops.value;
      Success((shops[0], it.(shops := Some(shops[1..]))))
    else if it.chunks.Some? && it.chunks.value != [] then
      var chunks := it.chunks.value;
      ConcatCons(chunks[0], chunks[1..]);
      assert chunks == [chunks[0]] + chunks[1..];
      Next(ShopIterator(it.worlds, Some(chunks[1..]), Some(chunks[0])))
    else if it.worlds == [] then Failure(NoSuchElement)
    else if it.worlds[0] == [] then Failure(NoSuchElement)
    else
      var chunks := it.worlds[0];
      FlattenCons(it.worlds);
      ConcatCons(chunks[0], chunks[1..]);
      assert chunks == [chunks[0]] + chunks[1..];
      assert NoEmptyWorldAhead(it) ==> NoEmptyWorldAhead(it.(worlds := it.worlds[1..]));
      Next(ShopIterator(it.worlds[1..], Some(chunks[1..]), Some(chunks[0])))
  }

  /** The usual `while (hasNext()) next()` loop never meets the exception:
      after `hasNext()` answers true, `next()` succeeds. */
  lemma NextAfterHasNext(it: ShopIterator)
    requires HasNext(it).0
    ensures Next(HasNext(it).1).Success?
  {
  }

  /** A walk that starts on an index whose worlds all have a chunk bucket
      can call `next()` alone as long as shops remain. */
  lemma StartOfValidIndex(idx: ShopIndex.Index)
    requires ShopIndex.NoEmptyWorld(idx)
    ensures NoEmptyWorldAhead(Start(idx))
  {
    var ws := Keys(idx);
    forall i | 0 <= i < |ws| ensures ShopIndex.View(idx)[i] != [] {
      assert ws[i] in idx;
      assert |ShopIndex.View(idx)[i]| == |idx[ws[i]]|;
    }
  }

  /** On an empty index `hasNext()` is false and `next()` throws. */
  lemma EmptyIndexYieldsNothing()
    ensures !HasNext(Start(map[])).0
    ensures Next(Start(map[])).Failure?
  {
    assert ShopIndex.AllShops(map[]) == [];
  }

  /** `next()` alone can throw while shops remain: a first world without
      chunk buckets hides the shops of the worlds after it. */
  lemma NextThrowsOnEmptyWorld(s: Shop)
    ensures var it := ShopIterator([[], [[s]]], None, None);
      Remaining(it) == [s] && Next(it).Failure? && HasNext(it).0
  {
    var it := ShopIterator([[], [[s]]], None, None);
    FlattenCons(it.worlds);
    FlattenCons(it.worlds[1..]);
    assert it.worlds[1..][1..] == [];
    assert Concat([[s]]) == [s] by { ConcatCons([s], []); }
  }

  /** Draining the iterator with `hasNext()`/`next()` hands out exactly the
      shops it had left, in order. */
  method Drain(start: ShopIterator) returns (out: seq<Shop>)
    ensures out == Remaining(start)
  {
    out := [];
    var probe := HasNext(start);
    var more := probe.0;
    var it := probe.1;
    while more
      invariant out + Remaining(it) == Remaining(start)
      invariant more <==> Remaining(it) != []
      invariant more ==> it.shops.Some? && it.shops.value != []
      decreases |Remaining(it)|
    {
      var step := Next(it);
      var shop := step.value.0;
      ghost var before := Remaining(it);
      it := step.value.1;
      assert before == [shop] + Remaining(it);
      assert out + before == (out + [shop]) + Remaining(it);
      out := out + [shop];
      probe := HasNext(it);
      more := probe.0;
      it := probe.1;
    }
  }

  /** Walking a fresh iterator to the end yields `getAllShops()`, and for a
      consistent index each filed shop exactly once. */
  method WalkAll(ghost idx: ShopIndex.Index, start: ShopIterator) returns (out: seq<Shop>)
    requires start == Start(idx)
    ensures out == ShopIndex.AllShops(idx)
    ensures ShopIndex.Consistent(idx) ==> Distinct(out)
    ensures ShopIndex.Consistent(idx) ==>
      forall s :: s in out <==> ShopIndex.Find(idx, s.location.world, s.location) == Some(s)
  {
    out := Drain(start);
    if ShopIndex.Consistent(idx) {
      ShopIndex.AllShopsOfConsistent(idx);
    }
  }
}

=== FILE: shops.dfy ===
/** The records the shop manager works on: block locations, chunk keys,
    shops, players and their permissions. */
module Shops {
  import opened Wrappers

  /** An actor (player, tax account) is identified by an opaque id. */
  type ActorId = nat

  /** An item signature: type and metadata, independent of stack size. */
  type ItemId = nat

  /** The integer block location of a shop in a named world. */
  datatype Location = Location(world: string, x: int, y: int, z: int)

  /** The coarse 16 x 16 bucket of a world a location falls into. */
  datatype Chunk = Chunk(world: string, x: int, z: int)

  /** SELLING: the shop sells to players; BUYING: the shop buys from them. */
  datatype ShopType = Selling | Buying

  datatype Shop = Shop(
    location: Location,
    owner: ActorId,
    price: real,
    item: ItemId,
    shopType: ShopType,
    unlimited: bool,
    alwaysCountingContainer: bool,
    taxAccount: Option<ActorId>)
  {
    /** Whether the shop's container bounds trades: either the shop is
        limited, or it is unlimited but set to count its container anyway. */
    predicate CountsContainer() {
      alwaysCountingContainer || !unlimited
    }
  }

  /** The permission nodes the shop manager consults. */
  datatype Permission =
    | OtherUse            // quickshop.other.use: trade without the shop's PURCHASE grant
    | TaxExempt           // quickshop.tax
    | TaxBypassUnlimited  // quickshop.tax.bypassunlimited

  /** A player's exact position (not a block position) in a world. */
  datatype Position = Position(world: string, x: real, y: real, z: real)

  /** The facts about a player the shop manager reads. `online` is whether
      the server can resolve the id to a player; permissions are only
      consulted for an online player. */
  datatype Player = Player(
    id: ActorId,
    online: bool,
    permissions: set<Permission>,
    position: Position,
    creative: bool)

  /** The chunk coordinate of a block coordinate, `(int) Math.floor(b / 16.0)`:
      the unique `c` with `16 c <= b < 16 c + 16`. Dafny's `/` is Euclidean,
      which for the positive divisor 16 rounds toward negative infinity. */
  function ChunkCoord(block: int): (c: int)
    ensures 16 * c <= block < 16 * c + 16
  {
    block / 16
  }

  /** The chunk coordinate is exactly the floor of the real quotient. */
  lemma ChunkCoordIsFloor(block: int)
    ensures ChunkCoord(block) == (block as real / 16.0).Floor
  {
    var c := ChunkCoord(block);
    var q := block as real / 16.0;
    assert c as real <= q < c as real + 1.0 by {
      assert 16.0 * (c as real) <= block as real < 16.0 * (c as real) + 16.0;
    }
  }

  /** The chunk key `addShop` and `removeShop` file a location under,
      within the bucket of `world`. */
  function ChunkOf(world: string, loc: Location): (c: Chunk)
    ensures c.world == world
    ensures 16 * c.x <= loc.x < 16 * c.x + 16
    ensures 16 * c.z <= loc.z < 16 * c.z + 16
  {
    Chunk(world, ChunkCoord(loc.x), ChunkCoord(loc.z))
  }
}

=== FILE: tax.dfy ===
/** `getTax`: the fraction of a trade's total taken as tax, before the
    external tax event may override it. */
module Tax {
  import opened Shops

  /** The player is spared tax on this shop: the owner never pays tax, and an
      online player may hold an exemption (always, or for unlimited shops). */
  predicate TaxWaived(shop: Shop, player: Player) {
    || player.id == shop.owner
    || (player.online && TaxExempt in player.permissions)
    || (player.online && shop.unlimited && TaxBypassUnlimited in player.permissions)
  }

  /** A configured rate is only used when it lies in [0, 1): a rate of 1 or
      more is rejected as invalid and a negative rate disables tax. */
  predicate UsableRate(configured: real) {
    0.0 <= configured < 1.0
  }

  /** `getTax(shop, p)`, up to the tax event: start from the configured
      rate, zero it for exempt online players, zero an out-of-range rate,
      and zero it for the owner. */
  function GetTax(configuredTax: real, shop: Shop, player: Player): (tax: real)
    ensures 0.0 <= tax < 1.0
    ensures tax == (if TaxWaived(shop, player) || !UsableRate(configuredTax) then 0.0 else configuredTax)
  {
    var tax := configuredTax;
    var tax := if player.online && TaxExempt in player.permissions then 0.0 else tax;
    var tax := if player.online && shop.unlimited && TaxBypassUnlimited in player.permissions then 0.0 else tax;
    var tax := if tax >= 1.0 then 0.0 else tax;
    var tax := if tax < 0.0 then 0.0 else tax;
    if shop.owner == player.id then 0.0 else tax
  }

  /** An owner trading with their own shop pays no tax, whatever the
      configuration and permissions. */
  lemma OwnerPaysNoTax(configuredTax: real, shop: Shop, player: Player)
    requires player.id == shop.owner
    ensures GetTax(configuredTax, shop, player) == 0.0
  {
  }

  /** An offline player's permissions are never consulted. */
  lemma OfflinePermissionsIgnored(configuredTax: real, shop: Shop, player: Player, perms: set<Permission>)
    requires !player.online
    ensures GetTax(configuredTax, shop, player) == GetTax(configuredTax, shop, player.(permissions := perms))
  {
  }
}

=== FILE: trade_all.dfy ===
/** Resolving the "trade all" keyword into an amount: `sellingShopAllCalc`
    (the player buys everything they can from a selling shop) and
    `buyingShopAllCalc` (the player sells everything they can to a buying
    shop). Both answer 0 with a cause-specific message when nothing can be
    traded. */
module TradeAll {
  import opened Shops

  const IntMax: int := 0x7fff_ffff
  const IntMin: int := -0x8000_0000

  /** A Java `int`. */
  type Int32 = x: int | -0x8000_0000 <= x <= 0x7fff_ffff

  /** Why "all" resolved to nothing; each is a distinct message to the player. */
  datatype Diagnostic =
    | StockTooLow        // shop-stock-too-low
    | NotEnoughSpace     // not-enough-space (player inventory)
    | CantAfford         // you-cant-afford-to-buy
    | ShopHasNoSpace     // shop-has-no-space
    | OwnerCantAfford    // the-owner-cant-afford-to-buy-from-you
    | NotEnoughItems     // you-dont-have-that-many-items

  datatype AllAmount = Resolved(amount: int) | Refused(diagnostic: Diagnostic) {
    /** The `int` the source returns: 0 when refused. */
    function Amount(): int {
      if Resolved? then amount else 0
    }
  }

  /** Java's narrowing of an integral `double` to `int`: values beyond the
      range saturate at its bounds. */
  function Saturate(n: int): (r: Int32)
    ensures IntMin <= n <= IntMax ==> r == n
    ensures n > IntMax ==> r == IntMax
    ensures n < IntMin ==> r == IntMin
  {
    if n > IntMax then IntMax else if n < IntMin then IntMin else n
  }

  /** `(int) Math.floor(balance / price)`: for a positive price, the most
      items the balance pays for. Dividing by a zero price gives an infinity
      or, for a zero balance, NaN, which the cast turns into 0. */
  function FloorQuotient(balance: real, price: real): (r: Int32)
    ensures price > 0.0 && r > IntMin ==> r as real * price <= balance
    ensures price > 0.0 && r < IntMax ==> balance < (r + 1) as real * price
    ensures price > 0.0 && r < 1 ==> balance < price
    ensures price == 0.0 ==> r == (if balance > 0.0 then IntMax else if balance < 0.0 then IntMin else 0)
  {
    if price == 0.0 then
      (if balance > 0.0 then IntMax else if balance < 0.0 then IntMin else 0)
    else
      var q := balance / price;
      var f := q.Floor;
      assert price > 0.0 ==> f as real * price <= balance < (f + 1) as real * price by {
        if price > 0.0 {
          QuotientFloorBounds(balance, price);
        }
      }
      assert price > 0.0 && f < 1 ==> balance < price by {
        if price > 0.0 && f < 1 {
          MultiplyMonotone((f + 1) as real, 1.0, price);
        }
      }
      Saturate(f)
  }

  /** `(int) (balance / price)` for a non-zero price: the quotient rounded
      toward zero, then narrowed. For a positive price and a non-negative
      balance it is the most items the balance pays for; a debt is rounded
      toward zero too, so one under a single price gives 0. */
  function TruncatedQuotient(balance: real, price: real): (r: Int32)
    requires price != 0.0
    ensures price > 0.0 && balance >= 0.0 && r < IntMax ==>
      0 <= r && r as real * price <= balance < (r + 1) as real * price
    ensures price > 0.0 && balance < 0.0 ==> r <= 0
    ensures price > 0.0 && r < 1 ==> balance < price
    ensures price > 0.0 && balance <= -price ==> r < 0
    ensures price > 0.0 && balance < 0.0 && r > IntMin ==>
      (r - 1) as real * price < balance <= r as real * price
  {
    var t := Truncate(balance / price);
    TruncatedBounds(balance, price);
    Saturate(t)
  }

  /** A real rounded toward zero. */
  function Truncate(q: real): int {
    if q >= 0.0 then q.Floor else -((-q).Floor)
  }

  /** What rounding a quotient by a positive price toward zero gives, before
      the narrowing. */
  lemma TruncatedBounds(balance: real, price: real)
    requires price != 0.0
    ensures var t := Truncate(balance / price);
      && (price > 0.0 && balance >= 0.0 ==> t as real * price <= balance < (t + 1) as real * price)
      && (price > 0.0 && t < 1 ==> balance < price)
      && (price > 0.0 && balance <= -price ==> t < 0)
      && (price > 0.0 && balance < 0.0 ==> (t - 1) as real * price < balance <= t as real * price)
  {
    var q := balance / price;
    var t := Truncate(q);
    if price > 0.0 {
      if balance >= 0.0 {
        assert q >= 0.0 by {
          if q < 0.0 {
            MultiplyStrict(q, 0.0, price);
          }
        }
        QuotientFloorBounds(balance, price);
        if t < 1 {
          MultiplyMonotone((t + 1) as real, 1.0, price);
        }
      } else {
        assert q < 0.0 by {
          if q >= 0.0 {
            MultiplyMonotone(0.0, q, price);
          }
        }
        TruncatedNegativeBounds(balance, price);
        if balance <= -price {
          QuotientAtMostMinusOne(balance, price);
          assert (-q).Floor >= 1;
        }
      }
    }
  }

  /** For a debt, the quotient rounded toward zero brackets the balance
      from above. */
  lemma TruncatedNegativeBounds(balance: real, price: real)
    requires price > 0.0 && balance < 0.0
    ensures var t := -((-(balance / price)).Floor);
      (t - 1) as real * price < balance <= t as real * price
  {
    var q := balance / price;
    assert (-balance) / price == -q;
    QuotientFloorBounds(-balance, price);
    var f := (-q).Floor;
    assert f as real * price <= -balance < (f + 1) as real * price;
    assert (-f) as real * price == -(f as real * price);
    assert (-f - 1) as real * price == -((f + 1) as real * price);
  }

  /** The floor of a quotient by a positive divisor brackets the dividend. */
  lemma QuotientFloorBounds(balance: real, price: real)
    requires price > 0.0
    ensures var f := (balance / price).Floor;
      f as real * price <= balance < (f + 1) as real * price
  {
    var q := balance / price;
    var f := q.Floor;
    assert q * price == balance;
    assert f as real <= q;
    assert q < f as real + 1.0;
    assert (f + 1) as real == f as real + 1.0;
    MultiplyMonotone(f as real, q, price);
    MultiplyStrict(q, (f + 1) as real, price);
    assert q * price < (f + 1) as real * price;
    assert balance < (f + 1) as real * price;
  }

  lemma MultiplyMonotone(a: real, b: real, c: real)
    requires a <= b && c > 0.0
    ensures a * c <= b * c
  {
  }

  /** A debt of at least one divisor gives a quotient of at most -1. */
  lemma QuotientAtMostMinusOne(balance: real, price: real)
    requires price > 0.0 && balance <= -price
    ensures balance / price <= -1.0
  {
    var q := balance / price;
    assert q * price == balance;
    assert -1.0 * price == -price;
    MultiplyCancel(q, -1.0, price);
  }

  lemma MultiplyCancel(a: real, b: real, c: real)
    requires c > 0.0 && a * c <= b * c
    ensures a <= b
  {
  }

  lemma MultiplyStrict(a: real, b: real, c: real)
    requires a < b && c > 0.0
    ensures a * c < b * c
  {
  }

  function Min(a: int, b: int): int {
    if a < b then a else b
  }

  // ---------------------------------------------------------------------
  // Selling shops: the player buys.

  /** The most items the player's balance pays for. */
  function PlayerAfford(shop: Shop, balance: real): Int32 {
    FloorQuotient(balance, shop.price)
  }

  /** `n` items fit the bounds of buying everything from a selling shop:
      the player's free space, what the balance pays for, and the shop's
      stock when the shop counts its container. */
  predicate SellFits(n: int, shop: Shop, stock: Int32, space: Int32, balance: real) {
    && n <= space
    && n <= PlayerAfford(shop, balance)
    && (shop.CountsContainer() ==> n <= stock)
  }

  /** `sellingShopAllCalc`: the largest amount within every bound, or a
      refusal naming the first exhausted bound in the order stock, inventory
      space, money. */
  function SellingAll(shop: Shop, stock: Int32, space: Int32, balance: real): (r: AllAmount)
    ensures r.Resolved? ==> 1 <= r.amount && SellFits(r.amount, shop, stock, space, balance)
    ensures forall n :: 1 <= n && SellFits(n, shop, stock, space, balance) ==>
      r.Resolved? && n <= r.amount
    ensures r.Refused? ==> r.diagnostic in {StockTooLow, NotEnoughSpace, CantAfford}
    ensures r == Refused(StockTooLow) <==> r.Refused? && shop.CountsContainer() && stock < 1
    ensures r == Refused(NotEnoughSpace) <==>
      r.Refused? && !(shop.CountsContainer() && stock < 1) && space <= 0
    ensures r == Refused(CantAfford) <==>
      r.Refused? && !(shop.CountsContainer() && stock < 1) && 1 <= space
    ensures r == Refused(CantAfford) ==> (shop.price > 0.0 ==> balance < shop.price)
  {
    var amount := if shop.CountsContainer() then Min(stock, space) else space;
    var amount := Min(amount, PlayerAfford(shop, balance));
    if amount < 1 then
      if shop.CountsContainer() && stock < 1 then Refused(StockTooLow)
      else if space <= 0 then Refused(NotEnoughSpace)
      else Refused(CantAfford)
    else Resolved(amount)
  }

  // ---------------------------------------------------------------------
  // Buying shops: the player sells.

  /** The most items the owner's balance pays for; unbounded at price 0. */
  function OwnerAfford(shop: Shop, ownerBalance: real): Int32 {
    if shop.price != 0.0 then TruncatedQuotient(ownerBalance, shop.price) else IntMax
  }

  /** Whether the owner is the paying party of a sale to this shop: the
      trade charges the owner unless the shop is unlimited and unlimited
      owners are not paid. */
  predicate OwnerPays(shop: Shop, payUnlimitedOwners: bool) {
    !shop.unlimited || payUnlimitedOwners
  }

  /** `n` items fit the bounds of selling everything to a buying shop: the
      player's items, the shop's free space when it counts its container,
      and what the owner can pay when the owner pays. */
  predicate BuyFits(n: int, shop: Shop, space: Int32, items: Int32, ownerBalance: real, payUnlimitedOwners: bool) {
    && n <= items
    && (shop.CountsContainer() ==> n <= space)
    && (OwnerPays(shop, payUnlimitedOwners) ==> n <= OwnerAfford(shop, ownerBalance))
  }

  /** `buyingShopAllCalc` with its owner-balance rules corrected: the owner's
      balance bounds the amount exactly when the owner pays, and the refusal
      names the first exhausted bound in the order shop space, owner's
      money, player's items. */
  function BuyingAll(shop: Shop, space: Int32, items: Int32, ownerBalance: real, payUnlimitedOwners: bool): (r: AllAmount)
    ensures r.Resolved? ==> 1 <= r.amount && BuyFits(r.amount, shop, space, items, ownerBalance, payUnlimitedOwners)
    ensures forall n :: 1 <= n && BuyFits(n, shop, space, items, ownerBalance, payUnlimitedOwners) ==>
      r.Resolved? && n <= r.amount
    ensures r.Refused? ==> r.diagnostic in {ShopHasNoSpace, OwnerCantAfford, NotEnoughItems}
    ensures r == Refused(ShopHasNoSpace) <==> r.Refused? && space == 0
    ensures r == Refused(OwnerCantAfford) <==>
      r.Refused? && space != 0 && OwnerPays(shop, payUnlimitedOwners) && OwnerAfford(shop, ownerBalance) < 1
    ensures r == Refused(OwnerCantAfford) ==> (shop.price > 0.0 ==> ownerBalance < shop.price)
    ensures r == Refused(NotEnoughItems) <==>
      r.Refused? && space != 0 && !(OwnerPays(shop, payUnlimitedOwners) && OwnerAfford(shop, ownerBalance) < 1)
    ensures r == Refused(NotEnoughItems) ==> items <= 0 || (shop.CountsContainer() && space < 0)
  {
    var ownerPays := OwnerPays(shop, payUnlimitedOwners);
    var afford := OwnerAfford(shop, ownerBalance);
    var amount := if shop.CountsContainer() then Min(space, items) else items;
    var amount := if ownerPays then Min(amount, afford) else amount;
    if amount < 1 then
      if space == 0 then Refused(ShopHasNoSpace)
      else if ownerPays && afford < 1 then Refused(OwnerCantAfford)
      else Refused(NotEnoughItems)
    else Resolved(amount)
  }

  /** The bounds `buyingShopAllCalc` as written applies: the owner's balance
      bounds the amount whenever the shop counts its container, even when the
      owner does not pay. */
  predicate BuyFitsAsWritten(n: int, shop: Shop, space: Int32, items: Int32, ownerBalance: real, payUnlimitedOwners: bool) {
    && n <= items
    && (shop.CountsContainer() ==> n <= space)
    && (shop.CountsContainer() || payUnlimitedOwners ==> n <= OwnerAfford(shop, ownerBalance))
  }

  /** `buyingShopAllCalc` exactly as written. */
  function BuyingAllAsWritten(shop: Shop, space: Int32, items: Int32, ownerBalance: real, payUnlimitedOwners: bool): (r: AllAmount)
    ensures r.Resolved? ==> 1 <= r.amount && BuyFitsAsWritten(r.amount, shop, space, items, ownerBalance, payUnlimitedOwners)
    ensures forall n :: 1 <= n && BuyFitsAsWritten(n, shop, space, items, ownerBalance, payUnlimitedOwners) ==>
      r.Resolved? && n <= r.amount
    ensures r == Refused(ShopHasNoSpace) <==> r.Refused? && space == 0
    ensures r.Refused? ==> r.diagnostic in {ShopHasNoSpace, OwnerCantAfford, NotEnoughItems}
    ensures r == Refused(OwnerCantAfford) <==>
      r.Refused? && space != 0 && OwnerPays(shop, payUnlimitedOwners) && OwnerAfford(shop, ownerBalance) == 0
    ensures r == Refused(NotEnoughItems) <==>
      r.Refused? && space != 0 && !(OwnerPays(shop, payUnlimitedOwners) && OwnerAfford(shop, ownerBalance) == 0)
  {
    var ownerCanAfford := OwnerAfford(shop, ownerBalance);
    var amount :=
      if shop.CountsContainer() then Min(Min(space, items), ownerCanAfford)
      else if payUnlimitedOwners then Min(items, ownerCanAfford)
      else items;
    if amount < 1 then
      if space == 0 then Refused(ShopHasNoSpace)
      else if ownerCanAfford == 0 && (!shop.unlimited || payUnlimitedOwners) then Refused(OwnerCantAfford)
      else Refused(NotEnoughItems)
    else Resolved(amount)
  }

  /** As written, an owner in debt by at least one item's price is reported
      to the player as "you don't have that many items" although the player
      holds items: the test `ownerCanAfford == 0` misses negative quotients. */
  lemma AsWrittenMisreportsOwnerDebt()
    ensures var shop := Shop(Location("world", 0, 64, 0), 1, 1.0, 7, Buying, false, false, Wrappers.None);
      BuyingAllAsWritten(shop, 5, 3, -10.0, false) == Refused(NotEnoughItems) &&
      BuyingAll(shop, 5, 3, -10.0, false) == Refused(OwnerCantAfford)
  {
  }

  /** As written, an unlimited shop that counts its container refuses a sale
      because its owner is broke, although with unlimited owners unpaid the
      owner is not charged for it. */
  lemma AsWrittenCapsUnpaidOwner()
    ensures var shop := Shop(Location("world", 0, 64, 0), 1, 1.0, 7, Buying, true, true, Wrappers.None);
      !OwnerPays(shop, false) &&
      BuyingAllAsWritten(shop, 5, 3, 0.0, false) == Refused(NotEnoughItems) &&
      BuyingAll(shop, 5, 3, 0.0, false) == Resolved(3)
  {
  }

  /** The two agree whenever the owner is charged and not in debt. */
  lemma CorrectionAgreesWhenOwnerPaysAndSolvent(
    shop: Shop, space: Int32, items: Int32, ownerBalance: real, payUnlimitedOwners: bool)
    requires OwnerPays(shop, payUnlimitedOwners)
    requires ownerBalance >= 0.0 && shop.price >= 0.0
    ensures BuyingAll(shop, space, items, ownerBalance, payUnlimitedOwners) ==
      BuyingAllAsWritten(shop, space, items, ownerBalance, payUnlimitedOwners)
  {
  }

  /** Selling everything from a shop with stock 3 to a player with room for
      10 and a balance of 2 at price 1 yields 2: the balance binds. */
  lemma SellingAllBalanceBinds()
    ensures var shop := Shop(Location("world", 0, 64, 0), 1, 1.0, 7, Selling, false, false, Wrappers.None);
      SellingAll(shop, 3, 10, 2.0) == Resolved(2)
  {
  }

  /** Buying everything into a shop with room for 5 from a player holding 8
      at price 1, with a rich owner, yields 5: the shop's space binds. */
  lemma BuyingAllSpaceBinds()
    ensures var shop := Shop(Location("world", 0, 64, 0), 1, 1.0, 7, Buying, false, false, Wrappers.None);
      BuyingAll(shop, 5, 8, 1000.0, false) == Resolved(5)
  {
  }
}

=== FILE: trade_gates.dfy ===
/** `actionTrade` and the checks `actionBuying` and `actionSelling` make
    before they build an economy transaction. Everything the server, the
    inventories and the economy answer is read from an `Observed` record
    taken when the chat task runs; the outcome either names the first check
    that failed or describes the transaction that would be built. */
module TradeGates {
  import opened Wrappers
  import opened Shops
  import ShopIndex
  import Tax
  import TradeAll
  import opened Interaction

  /** The configuration values the trade path reads. */
  datatype Config = Config(
    disableCreativeTrading: bool,   // shop.disable-creative-mode-trading
    tradeAllWord: string,           // shop.word-for-trade-all-items
    payUnlimitedOwners: bool,       // shop.pay-unlimited-shop-owners
    taxFreeForUnlimited: bool,      // tax-free-for-unlimited-shop
    configuredTax: real,            // tax
    taxAccount: Option<ActorId>)    // tax-account, resolved

  /** What the server reports during the main-thread run. Counts of -1 for the
      shop's remaining space or stock mean "unlimited". */
  datatype Observed = Observed(
    economyLoaded: bool,
    blockIsShoppable: bool,      // the clicked block's type can hold a shop
    blockCanBeShop: bool,        // the clicked block is still a usable container
    authorized: bool,            // the shop grants the player PURCHASE
    remainingSpace: TradeAll.Int32,  // shop.getRemainingSpace()
    remainingStock: TradeAll.Int32,  // shop.getRemainingStock()
    shopFreeSpace: TradeAll.Int32,   // free space counted in the shop's inventory
    playerItems: TradeAll.Int32,     // the shop's item counted in the player's inventory
    playerSpace: TradeAll.Int32,     // free space for it in the player's inventory
    playerBalance: real,
    ownerBalance: real)

  /** The message a rejected trade ends with. */
  datatype Reason =
    | EconomyNotLoaded
    | ChestWasRemoved
    | CreativeTradingDisabled
    | ShopHasChanged
    | NotAnInteger
    | NoPermission
    | NoShopSpace          // shop-has-no-space
    | TooFewItems          // you-dont-have-that-many-items
    | NoShopStock          // shop-stock-too-low
    | InventorySpaceFull
    | NegativeAmount

  /** The transaction the trade would build: who pays whom (none for an
      unlimited shop's side when unlimited owners are not paid), the total
      before any purchase-event override, the tax fraction and account. */
  datatype Plan = Plan(
    payer: Option<ActorId>,
    payee: Option<ActorId>,
    total: real,
    taxModifier: real,
    taxAccount: Option<ActorId>)

  datatype Outcome =
    | Reject(reason: Reason)
    | NumberFormatError          // a digit string too large for an int: thrown, not handled
    | ProceedToTransaction(amount: int, plan: Plan)

  /** The outcome of a trade line, with the diagnostic already sent when
      the trade-all word resolved to nothing. */
  datatype TradeResult = TradeResult(allNotice: Option<TradeAll.Diagnostic>, outcome: Outcome)

  // ---------------------------------------------------------------------
  // Reading the amount.

  predicate IsDigit(c: char) {
    '0' <= c <= '9'
  }

  /** `StringUtils.isNumeric` over ASCII digits: non-empty and all digits. */
  predicate IsNumeric(s: string) {
    |s| > 0 && forall i :: 0 <= i < |s| ==> IsDigit(s[i])
  }

  function DigitValue(c: char): int
    requires IsDigit(c)
  {
    c as int - '0' as int
  }

  /** The decimal value of a digit string. */
  function DigitsValue(s: string): (n: nat)
    requires forall i :: 0 <= i < |s| ==> IsDigit(s[i])
  {
    if s == [] then 0 else DigitsValue(s[..|s| - 1]) * 10 + DigitValue(s[|s| - 1])
  }

  /** The decimal digits of `n`, without leading zeros. */
  function Digits(n: nat): (s: string)
    ensures IsNumeric(s)
    ensures n >= 10 ==> s[0] != '0'
  {
    if n < 10 then [(n + '0' as int) as char]
    else Digits(n / 10) + [(n % 10 + '0' as int) as char]
  }

  /** Reading back the digits of a number gives the number. */
  lemma {:induction false} DigitsRoundTrip(n: nat)
    ensures DigitsValue(Digits(n)) == n
  {
    var s := Digits(n);
    if n >= 10 {
      var prefix := Digits(n / 10);
      assert s[..|s| - 1] == prefix;
      DigitsRoundTrip(n / 10);
    }
  }

  datatype Parsed = Amount(value: TradeAll.Int32) | Overflow | NotNumeric

  /** `StringUtils.isNumeric` then `Integer.parseInt`: digit strings parse,
      and one beyond `int` range makes `parseInt` throw. */
  function ParseAmount(s: string): (r: Parsed)
    ensures r.NotNumeric? <==> !IsNumeric(s)
    ensures r.Overflow? <==> IsNumeric(s) && DigitsValue(s) > TradeAll.IntMax
    ensures r.Amount? ==> r.value == DigitsValue(s) && r.value >= 0
  {
    if !IsNumeric(s) then NotNumeric
    else if DigitsValue(s) > TradeAll.IntMax then Overflow
    else Amount(DigitsValue(s))
  }

  /** Every `int` amount a player can type in plain digits is read back. */
  lemma ParseOfDigits(n: nat)
    requires n <= TradeAll.IntMax
    ensures ParseAmount(Digits(n)) == Amount(n)
  {
    DigitsRoundTrip(n);
  }

  function AsciiLower(c: char): char {
    if 'A' <= c <= 'Z' then (c as int - 'A' as int + 'a' as int) as char else c
  }

  /** `String.equalsIgnoreCase` over ASCII letters. */
  predicate EqualsIgnoreCase(a: string, b: string) {
    |a| == |b| && forall i :: 0 <= i < |a| ==> AsciiLower(a[i]) == AsciiLower(b[i])
  }

  // ---------------------------------------------------------------------
  // The checks before a transaction.

  /** `info.hasChanged(shop)`: the shop differs from the one the player
      clicked. */
  predicate HasChanged(info: Info, shop: Shop) {
    info.snapshot != Some(shop)
  }

  /** The player may trade: an online player with `quickshop.other.use`
      always may; otherwise the shop must grant PURCHASE. */
  predicate MayTrade(obs: Observed, player: Player) {
    obs.authorized || (player.online && OtherUse in player.permissions)
  }

  /** `shopIsNotValid`: the message of its first failing check, in the order
      economy, usable block, unchanged shop; none when all pass. */
  function InvalidReason(obs: Observed, info: Info, shop: Shop): (r: Option<Reason>)
    ensures r.None? <==> obs.economyLoaded && obs.blockCanBeShop && !HasChanged(info, shop)
    ensures r == Some(EconomyNotLoaded) <==> !obs.economyLoaded
    ensures r == Some(ChestWasRemoved) <==> obs.economyLoaded && !obs.blockCanBeShop
    ensures r == Some(ShopHasChanged) <==> obs.economyLoaded && obs.blockCanBeShop && HasChanged(info, shop)
  {
    if !obs.economyLoaded then Some(EconomyNotLoaded)
    else if !obs.blockCanBeShop then Some(ChestWasRemoved)
    else if HasChanged(info, shop) then Some(ShopHasChanged)
    else None
  }

  /** `shopIsNotValid` did not fire. */
  predicate StillValid(obs: Observed, info: Info, shop: Shop) {
    InvalidReason(obs, info, shop).None?
  }

  /** A count of -1 stands for an unlimited shop and reads as 10000. */
  function Effective(count: TradeAll.Int32): int {
    if count == -1 then 10000 else count
  }

  /** The tax fraction of the transaction. */
  function TaxModifier(cfg: Config, shop: Shop, player: Player): (tax: real)
    ensures 0.0 <= tax < 1.0
    ensures player.id == shop.owner ==> tax == 0.0
    ensures shop.unlimited && cfg.taxFreeForUnlimited ==> tax == 0.0
    ensures tax == if (shop.unlimited && cfg.taxFreeForUnlimited) || Tax.TaxWaived(shop, player)
                      || !Tax.UsableRate(cfg.configuredTax)
                   then 0.0 else cfg.configuredTax
  {
    if shop.unlimited && cfg.taxFreeForUnlimited then 0.0
    else Tax.GetTax(cfg.configuredTax, shop, player)
  }

  /** The shop's own tax account, else the configured one. */
  function TaxAccount(cfg: Config, shop: Shop): Option<ActorId> {
    if shop.taxAccount.Some? then shop.taxAccount else cfg.taxAccount
  }

  /** The owner's side of the transaction: absent for an unlimited shop
      when unlimited owners are not paid. */
  function OwnerParty(cfg: Config, shop: Shop): (p: Option<ActorId>)
    ensures p.None? <==> shop.unlimited && !cfg.payUnlimitedOwners
    ensures p.Some? ==> p.value == shop.owner
  {
    if TradeAll.OwnerPays(shop, cfg.payUnlimitedOwners) then Some(shop.owner) else None
  }

  /** The pre-transaction part of `actionBuying`: the player sells `amount`
      items to a buying shop. Checks, in order: permission, shop validity,
      the shop's space, the player's items, a positive amount. */
  function ActionBuying(cfg: Config, obs: Observed, player: Player, info: Info, shop: Shop, amount: TradeAll.Int32): (r: Outcome)
    ensures r.ProceedToTransaction? <==>
      MayTrade(obs, player) && StillValid(obs, info, shop) &&
      1 <= amount && amount <= Effective(obs.remainingSpace) && amount <= obs.playerItems
    ensures r.ProceedToTransaction? ==>
      r.amount == amount &&
      r.plan.payer == OwnerParty(cfg, shop) && r.plan.payee == Some(player.id) &&
      r.plan.total == amount as real * shop.price &&
      0.0 <= r.plan.taxModifier < 1.0 && r.plan.taxModifier == TaxModifier(cfg, shop, player) &&
      r.plan.taxAccount == TaxAccount(cfg, shop)
    ensures r == Reject(NoPermission) <==> !MayTrade(obs, player)
    ensures r == Reject(EconomyNotLoaded) <==> MayTrade(obs, player) && !obs.economyLoaded
    ensures r == Reject(ChestWasRemoved) <==> MayTrade(obs, player) && obs.economyLoaded && !obs.blockCanBeShop
    ensures r == Reject(ShopHasChanged) <==>
      MayTrade(obs, player) && obs.economyLoaded && obs.blockCanBeShop && HasChanged(info, shop)
    ensures r == Reject(NoShopSpace) <==>
      MayTrade(obs, player) && StillValid(obs, info, shop) && Effective(obs.remainingSpace) < amount
    ensures r == Reject(TooFewItems) <==>
      MayTrade(obs, player) && StillValid(obs, info, shop) &&
      amount <= Effective(obs.remainingSpace) && obs.playerItems < amount
    ensures r == Reject(NegativeAmount) <==>
      MayTrade(obs, player) && StillValid(obs, info, shop) &&
      amount < 1 && amount <= Effective(obs.remainingSpace) && amount <= obs.playerItems
    ensures r.Reject? ==> r.reason in {NoPermission, EconomyNotLoaded, ChestWasRemoved, ShopHasChanged,
                                       NoShopSpace, TooFewItems, NegativeAmount}
  {
    if !MayTrade(obs, player) then Reject(NoPermission)
    else if InvalidReason(obs, info, shop).Some? then Reject(InvalidReason(obs, info, shop).value)
    else if Effective(obs.remainingSpace) < amount then Reject(NoShopSpace)
    else if amount > obs.playerItems then Reject(TooFewItems)
    else if amount < 1 then Reject(NegativeAmount)
    else
      ProceedToTransaction(amount, Plan(
        OwnerParty(cfg, shop), Some(player.id), amount as real * shop.price,
        TaxModifier(cfg, shop, player), TaxAccount(cfg, shop)))
  }

  /** The pre-transaction part of `actionSelling`: the player buys `amount`
      items from a selling shop. Checks, in order: permission, shop
      validity, the shop's stock, the player's free space, a positive
      amount. */
  function ActionSelling(cfg: Config, obs: Observed, player: Player, info: Info, shop: Shop, amount: TradeAll.Int32): (r: Outcome)
    ensures r.ProceedToTransaction? <==>
      MayTrade(obs, player) && StillValid(obs, info, shop) &&
      1 <= amount && amount <= Effective(obs.remainingStock) && amount <= obs.playerSpace
    ensures r.ProceedToTransaction? ==>
      r.amount == amount &&
      r.plan.payer == Some(player.id) && r.plan.payee == OwnerParty(cfg, shop) &&
      r.plan.total == amount as real * shop.price &&
      0.0 <= r.plan.taxModifier < 1.0 && r.plan.taxModifier == TaxModifier(cfg, shop, player) &&
      r.plan.taxAccount == TaxAccount(cfg, shop)
    ensures r == Reject(NoPermission) <==> !MayTrade(obs, player)
    ensures r == Reject(EconomyNotLoaded) <==> MayTrade(obs, player) && !obs.economyLoaded
    ensures r == Reject(ChestWasRemoved) <==> MayTrade(obs, player) && obs.economyLoaded && !obs.blockCanBeShop
    ensures r == Reject(ShopHasChanged) <==>
      MayTrade(obs, player) && obs.economyLoaded && obs.blockCanBeShop && HasChanged(info, shop)
    ensures r == Reject(NoShopStock) <==>
      MayTrade(obs, player) && StillValid(obs, info, shop) && Effective(obs.remainingStock) < amount
    ensures r == Reject(InventorySpaceFull) <==>
      MayTrade(obs, player) && StillValid(obs, info, shop) &&
      amount <= Effective(obs.remainingStock) && obs.playerSpace < amount
    ensures r == Reject(NegativeAmount) <==>
      MayTrade(obs, player) && StillValid(obs, info, shop) &&
      amount < 1 && amount <= Effective(obs.remainingStock) && amount <= obs.playerSpace
    ensures r.Reject? ==> r.reason in {NoPermission, EconomyNotLoaded, ChestWasRemoved, ShopHasChanged,
                                       NoShopStock, InventorySpaceFull, NegativeAmount}
  {
    if !MayTrade(obs, player) then Reject(NoPermission)
    else if InvalidReason(obs, info, shop).Some? then Reject(InvalidReason(obs, info, shop).value)
    else if Effective(obs.remainingStock) < amount then Reject(NoShopStock)
    else if obs.playerSpace < amount then Reject(InventorySpaceFull)
    else if amount < 1 then Reject(NegativeAmount)
    else
      ProceedToTransaction(amount, Plan(
        Some(player.id), OwnerParty(cfg, shop), amount as real * shop.price,
        TaxModifier(cfg, shop, player), TaxAccount(cfg, shop)))
  }

  /** The checks of the shop's side, by its type. */
  function Gates(cfg: Config, obs: Observed, player: Player, info: Info, shop: Shop, amount: TradeAll.Int32): Outcome {
    match shop.shopType
    case Buying => ActionBuying(cfg, obs, player, info, shop, amount)
    case Selling => ActionSelling(cfg, obs, player, info, shop, amount)
  }

  /** The trade-all word resolved for this shop. */
  function ResolveAll(cfg: Config, obs: Observed, shop: Shop): TradeAll.AllAmount {
    match shop.shopType
    case Buying => TradeAll.BuyingAllAsWritten(shop, obs.shopFreeSpace, obs.playerItems, obs.ownerBalance, cfg.payUnlimitedOwners)
    case Selling => TradeAll.SellingAll(shop, obs.remainingStock, obs.playerSpace, obs.playerBalance)
  }

  /** The amount a chat line asks for, once it reaches the trade path:
      a number, the trade-all word, or neither. */
  predicate AsksFor(cfg: Config, obs: Observed, shop: Shop, message: string, amount: int) {
    (IsNumeric(message) && DigitsValue(message) == amount) ||
    (!IsNumeric(message) && EqualsIgnoreCase(message, cfg.tradeAllWord) &&
     ResolveAll(cfg, obs, shop).Amount() == amount)
  }

  /** `actionTrade`: the checks that the economy is up, the shop is still
      there, creative trading is allowed and the shop is unchanged, then
      the amount is read from the line and handed to the shop type's
      checks. A trade only proceeds on the shop the player clicked, as it
      was when they clicked, for the amount the line asks for. */
  function ActionTrade(idx: ShopIndex.Index, cfg: Config, obs: Observed, player: Player, info: Info, message: string): (r: TradeResult)
    ensures r.outcome.ProceedToTransaction? ==>
      && obs.economyLoaded && obs.blockIsShoppable && obs.blockCanBeShop
      && !(player.creative && cfg.disableCreativeTrading)
      && ShopIndex.Find(idx, info.location.world, info.location).Some?
      && var shop := ShopIndex.Find(idx, info.location.world, info.location).value;
         info.snapshot == Some(shop) && MayTrade(obs, player) &&
         1 <= r.outcome.amount && AsksFor(cfg, obs, shop, message, r.outcome.amount)
    ensures r.outcome.NumberFormatError? ==> IsNumeric(message) && DigitsValue(message) > TradeAll.IntMax
    ensures r.allNotice.Some? ==> r.outcome.Reject?
    ensures r.outcome == Reject(NotAnInteger) ==>
      !IsNumeric(message) && !EqualsIgnoreCase(message, cfg.tradeAllWord)
  {
    if !obs.economyLoaded then TradeResult(None, Reject(EconomyNotLoaded))
    else match ShopIndex.GetShop(idx, info.location, false, obs.blockIsShoppable)
      case None => TradeResult(None, Reject(ChestWasRemoved))
      case Some(shop) =>
        if !obs.blockCanBeShop then TradeResult(None, Reject(ChestWasRemoved))
        else if player.creative && cfg.disableCreativeTrading then TradeResult(None, Reject(CreativeTradingDisabled))
        else if HasChanged(info, shop) then TradeResult(None, Reject(ShopHasChanged))
        else match ParseAmount(message)
          case Overflow => TradeResult(None, NumberFormatError)
          case Amount(n) => TradeResult(None, Gates(cfg, obs, player, info, shop, n))
          case NotNumeric =>
            if EqualsIgnoreCase(message, cfg.tradeAllWord) then
              var all := ResolveAll(cfg, obs, shop);
              TradeResult(if all.Refused? then Some(all.diagnostic) else None,
                          Gates(cfg, obs, player, info, shop, all.Amount()))
            else TradeResult(None, Reject(NotAnInteger))
  }

  /** `actionTrade`'s own checks come in order: the economy, then a missing
      or unusable shop, then creative mode, then a changed shop. */
  lemma ActionTradeOrder(idx: ShopIndex.Index, cfg: Config, obs: Observed, player: Player, info: Info, message: string)
    ensures var r := ActionTrade(idx, cfg, obs, player, info, message).outcome;
      var found := ShopIndex.GetShop(idx, info.location, false, obs.blockIsShoppable);
      var shopUsable := obs.economyLoaded && found.Some? && obs.blockCanBeShop;
      var creativeBlocked := player.creative && cfg.disableCreativeTrading;
      && (!obs.economyLoaded ==> r == Reject(EconomyNotLoaded))
      && (obs.economyLoaded && (found.None? || !obs.blockCanBeShop) ==> r == Reject(ChestWasRemoved))
      && (shopUsable && creativeBlocked ==> r == Reject(CreativeTradingDisabled))
      && (shopUsable && !creativeBlocked && HasChanged(info, found.value) ==> r == Reject(ShopHasChanged))
  {
  }

  /** At a ready shop, a line that is neither a number nor the trade-all
      word is answered with "not an integer" and nothing else. */
  lemma OtherLineIsNotAnInteger(idx: ShopIndex.Index, cfg: Config, obs: Observed, player: Player, info: Info, shop: Shop, message: string)
    requires ReadyToTrade(idx, cfg, obs, player, info, shop)
    requires !IsNumeric(message) && !EqualsIgnoreCase(message, cfg.tradeAllWord)
    ensures ActionTrade(idx, cfg, obs, player, info, message) == TradeResult(None, Reject(NotAnInteger))
  {
    assert ShopIndex.GetShop(idx, info.location, false, obs.blockIsShoppable) == Some(shop);
  }

  /** At a ready shop, a digit string too large for an `int` makes
      `Integer.parseInt` throw rather than reject or trade. */
  lemma OverflowingNumberThrows(idx: ShopIndex.Index, cfg: Config, obs: Observed, player: Player, info: Info, shop: Shop, message: string)
    requires ReadyToTrade(idx, cfg, obs, player, info, shop)
    requires IsNumeric(message) && DigitsValue(message) > TradeAll.IntMax
    ensures ActionTrade(idx, cfg, obs, player, info, message).outcome == NumberFormatError
  {
    assert ShopIndex.GetShop(idx, info.location, false, obs.blockIsShoppable) == Some(shop);
  }

  /** A line that reaches a shop whose snapshot is stale never trades. */
  lemma StaleSnapshotNeverTrades(idx: ShopIndex.Index, cfg: Config, obs: Observed, player: Player, info: Info, message: string)
    requires ShopIndex.Find(idx, info.location.world, info.location).Some?
    requires HasChanged(info, ShopIndex.Find(idx, info.location.world, info.location).value)
    ensures !ActionTrade(idx, cfg, obs, player, info, message).outcome.ProceedToTransaction?
  {
  }

  /** Everything the trade path needs apart from the amount: the economy,
      the clicked shop unchanged and its block usable, creative trading
      allowed, and the player's permission. */
  predicate ReadyToTrade(idx: ShopIndex.Index, cfg: Config, obs: Observed, player: Player, info: Info, shop: Shop) {
    && obs.economyLoaded && obs.blockIsShoppable && obs.blockCanBeShop
    && !(player.creative && cfg.disableCreativeTrading)
    && ShopIndex.Find(idx, info.location.world, info.location) == Some(shop)
    && info.snapshot == Some(shop)
    && MayTrade(obs, player)
  }

  /** The shop's own counts agree with the ones the trade-all resolution
      reads, as they do for a shop that counts its container. */
  predicate CountsAgree(obs: Observed, shop: Shop) {
    && shop.CountsContainer()
    && obs.remainingSpace == obs.shopFreeSpace
    && obs.remainingStock != -1
  }

  /** Typing the trade-all word at a ready shop that counts its container
      trades exactly the resolved amount when it resolves, and nothing
      (after the diagnostic) when it does not. */
  lemma TradeAllTradesResolvedAmount(idx: ShopIndex.Index, cfg: Config, obs: Observed, player: Player, info: Info, shop: Shop, message: string)
    requires ReadyToTrade(idx, cfg, obs, player, info, shop)
    requires CountsAgree(obs, shop)
    requires !IsNumeric(message) && EqualsIgnoreCase(message, cfg.tradeAllWord)
    ensures var r := ActionTrade(idx, cfg, obs, player, info, message);
      var all := ResolveAll(cfg, obs, shop);
      (all.Resolved? ==> r.allNotice == None && r.outcome.ProceedToTransaction? && r.outcome.amount == all.amount) &&
      (all.Refused? ==> r.allNotice == Some(all.diagnostic) && r.outcome.Reject?)
  {
    assert ShopIndex.GetShop(idx, info.location, false, obs.blockIsShoppable) == Some(shop);
  }

  /** A typed number at a ready shop proceeds exactly when it is positive
      and within the shop's and the player's bounds for the shop's type. */
  lemma TypedAmountProceeds(idx: ShopIndex.Index, cfg: Config, obs: Observed, player: Player, info: Info, shop: Shop, n: nat)
    requires ReadyToTrade(idx, cfg, obs, player, info, shop)
    requires n <= TradeAll.IntMax
    ensures var r := ActionTrade(idx, cfg, obs, player, info, Digits(n));
      r.outcome.ProceedToTransaction? <==>
        1 <= n &&
        (shop.shopType.Buying? ==> n <= Effective(obs.remainingSpace) && n <= obs.playerItems) &&
        (shop.shopType.Selling? ==> n <= Effective(obs.remainingStock) && n <= obs.playerSpace)
  {
    ParseOfDigits(n);
    assert ShopIndex.GetShop(idx, info.location, false, obs.blockIsShoppable) == Some(shop);
  }

  /** The owner of an unlimited shop is no party to its trades unless
      unlimited owners are paid; the trading player always is. */
  lemma UnlimitedOwnerNotCharged(idx: ShopIndex.Index, cfg: Config, obs: Observed, player: Player, info: Info, message: string)
    requires !cfg.payUnlimitedOwners
    ensures var r := ActionTrade(idx, cfg, obs, player, info, message);
      r.outcome.ProceedToTransaction? ==>
        var shop := ShopIndex.Find(idx, info.location.world, info.location).value;
        (shop.unlimited && player.id != shop.owner ==>
           r.outcome.plan.payer != Some(shop.owner) && r.outcome.plan.payee != Some(shop.owner)) &&
        (r.outcome.plan.payer == Some(player.id) || r.outcome.plan.payee == Some(player.id))
  {
  }
}

=== FILE: wrappers.dfy ===
/** `Option` stands for the source's nullable references; `Result` for
    operations that either return a value or throw. */
module Wrappers {

  datatype Option<+T> = None | Some(value: T) {

    /** The value, or `default` when absent. */
    function GetOr(default: T): T {
      match this
      case Some(v) => v
      case None => default
    }
  }

  datatype Result<+R, +E> = Success(value: R) | Failure(error: E)
}
